=== FILE: README.md ===
# Ideaverse thinking workflow, modelled in Dafny

Ideaverse guides a user through three steps on one problem. It runs an
interview, then an analysis along the dimensions of a thinking model, then
solutions and a mind map. An AI service does the writing. This project
models the four files that carry that logic:

- `src/services/ai.js`, only its pure part. This is the recovery of a JSON
  value from an AI reply: fenced blocks, the outermost braces, trailing
  commas and bold markers. It also covers the card compression used for
  the report prompt.
- `src/services/storage.js`, the session repository. It works over
  `localStorage`: a list of sessions, the current session id and the
  settings.
- `src/services/prompts.js`. This holds the per-language prompt overrides
  and `{placeholder}` substitution.
- `src/stores/thinking.js`, the store. It holds the current session and
  the AI request status, and every action writes the session through to the
  repository. Its DJB2 hash decides whether the mind map must be
  regenerated.

Modules:

- `Wrappers` (`wrappers.dfy`): `Option` and `Result`.
- `Json` (`json.dfy`): JSON values, truthiness, field reads, and the object
  spread `{...s, ...p}`. Undefined fields disappear when the spread object
  is stored. Strings are also seen as UTF-16 code units, which is what
  `length`, `substring` and `charCodeAt` count.
- `JsonRecovery` (`json_recovery.dfy`): `cleanJsonString`, the four-strategy
  cascade of `parseJsonResponse` and its fallback pass, and
  `compressAnalysisCards`.
  - `JSON.parse` is a parameter `parse: string -> Option<Json>`.
  - Each regular expression is written out as a scanner that matches it
    left to right.
- `LocalStorage` and `SessionStorage` (`session_storage.dfy`).
  - `localStorage` is an object `LocalStore` with a map from keys to stored
    values. A stored value is a list of records, a JSON document, or raw
    text that does not parse.
  - The repository functions are methods that reassign that map. Each is
    specified by a function on the old map.
- `Prompts` (`prompts.dfy`): prompt lookup, substitution, saving and
  resetting. The two built-in prompt tables are a parameter.
- `Thinking` (`thinking.dfy`): the DJB2 hash as a loop over UTF-16 code
  units, the list edits of the actions, and the class `ThinkingStore`.
  - The store's invariant `Valid()` says two things. The repository is well
    formed, and the current session is one of the stored sessions.
  - Each AI action takes the outcome of its AI call as a parameter: the
    value returned, or the message thrown, plus the last progress length
    reported.
  - An action's contract states both the repository and the store
    afterwards, on success and on failure. The partner lemmas state what
    the written session then holds.

## Model

| member | source | states |
|---|---|---|
| Json.Assign | src/services/storage.js:97-101 | `{...s, ...updates}` once stored: a defined update wins, an undefined one removes the field, every other field of `s` is kept |
| JsonRecovery.SpaceRun | src/services/ai.js:461 | the greedy `\s*`: the longest all-space prefix, stopping at the first non-space |
| JsonRecovery.Trim | src/services/ai.js:497 | `trim()`: a slice of the input with only spaces cut on either side, and no space left at either end |
| JsonRecovery.IndexOfFrom | src/services/ai.js:495 | the first occurrence of a pattern at or after a position, or none anywhere after it |
| JsonRecovery.FirstIndexOf | src/services/ai.js:511 | `indexOf('{')`: the first index holding the character, or none |
| JsonRecovery.LastIndexOf | src/services/ai.js:512 | `lastIndexOf('}')`: the last index holding the character, or none |
| JsonRecovery.FenceSpan | src/services/ai.js:495-503 | the lazy fence match: the leftmost opener, then the first closing fence after it with no fence in between; no opener gives no match, and an opener followed somewhere by a closing fence always matches |
| JsonRecovery.BraceSlice | src/services/ai.js:511-514 | strategy 3 applies iff some `{` precedes some `}`; the slice runs from the first `{` to the last `}` |
| JsonRecovery.MatchQuotedBold | src/services/ai.js:465 | a match is the colon, its spaces, then `**"v"**` with `v` free of quotes, and `v` is what it captures |
| JsonRecovery.BoldStartSpaces | src/services/ai.js:465-466 | everything between the colon and the `**` the bold rewrites look for is `\s` |
| JsonRecovery.QuotedBoldMatched | src/services/ai.js:465 | the colon, spaces and `**"v"**` with a quote-free `v` always match, capturing `v` |
| JsonRecovery.MatchBareBold | src/services/ai.js:466 | a match is the colon, its spaces, `**`, a non-empty `v` of `[^,}\]"]` characters and `**`; the greedy group leaves no `**` later in the run, and without a match the run holds no `**` after its first character |
| JsonRecovery.BareBoldMatched | src/services/ai.js:466 | the colon, spaces and `**v**` with a non-empty bare `v` that ends the run always match, capturing `v` |
| JsonRecovery.RemoveTrailingCommasRemovesExactly | src/services/ai.js:461 | the comma rewrite equals the reference definition: every comma followed (after spaces) by `}` or `]` is dropped, nothing else changes |
| JsonRecovery.RemoveTrailingCommasIdentity | src/services/ai.js:461 | text without a trailing comma is left unchanged |
| JsonRecovery.UnboldIdentity | src/services/ai.js:465-466 | text with no `**` after a colon is left unchanged by both bold rewrites |
| JsonRecovery.CleanJsonStringIdentity | src/services/ai.js:455-474 | the cleaner leaves valid-looking text (no trailing comma, no bold value) unchanged |
| JsonRecovery.QuotedBoldRewritten | src/services/ai.js:465 | `: **"v"**` becomes `:"v"` and the scan goes on after it |
| JsonRecovery.BareBoldRewritten | src/services/ai.js:466 | `: **v**` with a bare value becomes `:"v"` and the scan goes on after it |
| JsonRecovery.NoFenceWithoutBacktick | src/services/ai.js:495-508 | text without backticks has no fence, so strategies 1 and 2 do not apply |
| JsonRecovery.JsonFenceContent | src/services/ai.js:495-497 | for prose + "```json" + t + "```" + rest, strategy 1 extracts exactly `trim(t)` |
| JsonRecovery.Attempt | src/services/ai.js:484-490 | a strategy succeeds iff its candidate exists and the cleaned candidate parses to a truthy value, which is then the result |
| JsonRecovery.FirstSuccess | src/services/ai.js:493-525 | the result is the first strategy that succeeds, in order; no result iff every strategy fails |
| JsonRecovery.ExtractAndParse | src/services/ai.js:493-525 | `extractAndParse` is the first success over the four candidates fence-json, any fence, braces, whole text |
| JsonRecovery.FencedJsonWins | src/services/ai.js:494-500 | surrounding prose does not change the value parsed from a `json` fence |
| JsonRecovery.BareArrayUnwrapped | src/services/ai.js:510-516 | a reply that is an array `[{…}]` holding one object comes back as that object, since strategy 3 wins before strategy 4 sees the array |
| JsonRecovery.StripMarkdown | src/services/ai.js:536-539 | the fallback clean-up leaves no `*` and no backtick |
| JsonRecovery.StripMarkdownDeletes | src/services/ai.js:536-539 | the clean-up deletes every `*` and every backtick and keeps every other character (as a multiset) |
| JsonRecovery.StripMarkdownIdentity | src/services/ai.js:536-539 | text without `*` or backticks is not changed by the clean-up |
| JsonRecovery.StripMarkdownIdempotent | src/services/ai.js:536-539 | cleaning twice is cleaning once |
| JsonRecovery.ParseJsonResponse | src/services/ai.js:527-544 | the first pass wins when it succeeds; otherwise the result is the second pass on the stripped text; a failure carries the format error; every success is truthy |
| JsonRecovery.CompressAll | src/services/ai.js:849-863 | the card map keeps length and order and fails iff some card throws |
| JsonRecovery.CompressAnalysisCards | src/services/ai.js:846-863 | a non-array gives `[]`; an array is compressed card by card, throwing iff some card is `null` or fails to compress |
| JsonRecovery.CutUnits | src/services/ai.js:853 | `substring(0, n)` of a longer text: exactly `n` UTF-16 code units, a prefix of the text, or a prefix plus U+FFFD where the cut splits a surrogate pair |
| JsonRecovery.TruncateString | src/services/ai.js:851-854 | a text of at most 200 UTF-16 code units is kept; a longer one becomes its first 200 code units plus `...`, 203 units in all |
| JsonRecovery.TruncateIdempotent | src/services/ai.js:851-854 | truncating an already truncated value changes nothing |
| SessionStorage.FindSession | src/services/storage.js:94 | `findIndex`: the first session with the id, or none has it |
| SessionStorage.GetSession | src/services/storage.js:31-34 | a session is found iff one has the id, and it is the first such |
| SessionStorage.GetCurrentSession | src/services/storage.js:144-147 | no id (or an empty one) gives no session; otherwise the session with that id |
| SessionStorage.CurrentIdRoundTrip | src/services/storage.js:126-139 | after `setCurrentSessionId(id)`, `getCurrentSessionId()` gives back a truthy id and nothing for a falsy one; the sessions are untouched |
| SessionStorage.SetCurrentSessionId | src/services/storage.js:133-139 | a truthy id is stored and a falsy one is removed |
| SessionStorage.CreateSession | src/services/storage.js:57-87 | the fresh record (step 1, empty lists) is put first in the list and becomes the current session |
| SessionStorage.CreatedSessionIsFound | src/services/storage.js:57-87 | a created session can be read back by id, and as the current session when its id is non-empty |
| SessionStorage.UpdatedRecordFields | src/services/storage.js:97-101 | the updated record has the new `updatedAt`, each defined update, no undefined one, and otherwise the old fields |
| SessionStorage.UpdatedItems | src/services/storage.js:92-107 | an update keeps storage well formed |
| SessionStorage.UpdateSession | src/services/storage.js:92-107 | returns and stores the result of updating the first session with the id |
| SessionStorage.UpdateSessionEffect | src/services/storage.js:92-107 | unknown id: null and nothing written; otherwise only the first matching session is replaced by its update, in place; other keys are untouched |
| SessionStorage.UpdatedSessionIsFound | src/services/storage.js:94-103 | an update that leaves `id` alone keeps the session findable at the same index |
| SessionStorage.UpdateKeepsId | src/services/storage.js:92-104 | updating a stored session without touching `id` returns it with the same id |
| SessionStorage.RemoveId | src/services/storage.js:114 | the filter keeps only sessions of the list whose id differs |
| SessionStorage.RemoveIdKeeps | src/services/storage.js:114 | every session with another id survives the filter |
| SessionStorage.RemoveIdAbsent | src/services/storage.js:114 | removing an absent id changes nothing |
| SessionStorage.DeleteSession | src/services/storage.js:112-121 | storage afterwards is the deletion of the id, still well formed |
| SessionStorage.DeleteSessionEffect | src/services/storage.js:112-121 | afterwards the id is not found, exactly the other sessions remain, and the current id is cleared iff it was the deleted one |
| SessionStorage.GetSettings | src/services/storage.js:152-158 | no stored settings or the empty text gives the defaults; stored settings are returned as stored; any other raw text makes the parse throw (`None`) |
| SessionStorage.UpdateSettings | src/services/storage.js:163-168 | the new settings are the old ones spread with the updates (an `undefined` update drops its field), and they are stored; unparseable settings throw and nothing is written |
| SessionStorage.SettingsRoundTrip | src/services/storage.js:152-168 | reading settings back after an update gives each defined update, drops each `undefined` one, keeps the other old fields, and keeps the default theme when it was not updated |
| SessionStorage.ExportMindMap | src/services/storage.js:183-188 | the mind map is returned iff the session exists and its map is truthy |
| Prompts.GetStorageKey | src/services/prompts.js:696-698 | the English key iff the language is `en-US`, the Chinese key otherwise |
| Prompts.GetPrompts | src/services/prompts.js:705-719 | no (or unparseable) stored prompts give the defaults; otherwise each stored prompt overrides its default and every other default is kept |
| Prompts.ContentOf | src/services/prompts.js:728-731 | a missing prompt has empty content |
| Prompts.ReplaceAllAbsent | src/services/prompts.js:733-735 | a placeholder that does not occur leaves the text unchanged |
| Prompts.ReplaceAllFirst | src/services/prompts.js:733-735 | the first occurrence is replaced and the scan goes on after it |
| Prompts.ReplaceAllSelf | src/services/prompts.js:733-735 | replacing a placeholder by itself is the identity |
| Prompts.SubstituteAllAbsent | src/services/prompts.js:733-735 | content mentioning none of the placeholders is returned unchanged |
| Prompts.SubstituteAllEmpty | src/services/prompts.js:728-738 | empty content stays empty whatever the variables |
| Prompts.GetPrompt | src/services/prompts.js:728-738 | the content after replacing every `{key}` by its value, one variable after another, in order |
| Prompts.UnknownPromptIsEmpty | src/services/prompts.js:728-738 | a prompt neither built in nor saved yields the empty string |
| Prompts.SavePrompts | src/services/prompts.js:745-748 | the prompts are stored under the language's key, nothing else changes |
| Prompts.SavedPromptsRead | src/services/prompts.js:705-748 | reading back saved prompts gives each saved prompt, the defaults for the rest, and nothing else |
| Prompts.SaveKeepsOtherLanguage | src/services/prompts.js:696-748 | saving one language's prompts does not change the other language's |
| Prompts.ResetPrompts | src/services/prompts.js:754-758 | the language's override is removed and reading gives the defaults |
| Prompts.ResetPrompt | src/services/prompts.js:765-774 | a built-in prompt is restored to a copy of its default and the whole table is saved; otherwise nothing changes |
| Prompts.ResetPromptRestores | src/services/prompts.js:765-774 | after the reset the prompt reads as its default and every other prompt as before |
| Json.CodeUnits | src/stores/thinking.js:27-28 | the UTF-16 units `charCodeAt` walks: one or two per character |
| Json.UnitLengthIsLength | src/services/ai.js:853 | `length` is the number of UTF-16 code units of the text |
| Thinking.Djb2 | src/stores/thinking.js:25-31 | the hash is an unsigned 32-bit value |
| Thinking.Djb2Extend | src/stores/thinking.js:27-29 | hashing a concatenation continues from the hash of the prefix |
| Thinking.Djb2Values | src/stores/thinking.js:25-31 | the empty text hashes to 5381 and "a" to 177604 |
| Thinking.GenerateHash | src/stores/thinking.js:25-31 | the loop computes the DJB2 hash (×33 xor code unit, 32-bit) |
| Thinking.FindBy | src/stores/thinking.js:279 | `findIndex(x => x.key === v)`: the first match; a `null` met before any match throws |
| Thinking.RemoveById | src/stores/thinking.js:569 | the filter throws iff some card is `null` |
| Thinking.RemoveByIdMembers | src/stores/thinking.js:569 | the filter keeps exactly the cards with another id |
| Thinking.RemoveByIdAppend | src/stores/thinking.js:569 | the filter of a concatenation is the concatenation of the filters, so order and repetitions of the kept cards are preserved |
| Thinking.RemoveByIdAbsent | src/stores/thinking.js:569 | a list without `null` and without the id comes back unchanged |
| Thinking.NormalizeQuestions | src/stores/thinking.js:247-254 | an array is used as is, otherwise a `questions` array, otherwise `[]` |
| Thinking.NormalizeQuestionsStable | src/stores/thinking.js:247-254 | normalising a normalised list changes nothing; `{questions: xs}` and `xs` normalise alike |
| Thinking.Upsert | src/stores/thinking.js:278-285 | the upsert throws only when the search meets a `null` answer |
| Thinking.UpsertEffect | src/stores/thinking.js:278-285 | an answered question is replaced in place at the first index holding its id, a new one is appended, and every other answer stays where it was |
| Thinking.UpsertKeepsIdsDistinct | src/stores/thinking.js:278-285 | answers with distinct question ids keep them distinct, with exactly one entry for the question |
| Thinking.MakeCards | src/stores/thinking.js:387-391 | one pending card without content per dimension, keeping the dimension's fields |
| Thinking.MergedCardFields | src/stores/thinking.js:441-445 | a merged card is completed, has the result's fields over the card's, and keeps its id unless the result brings another |
| Thinking.RegeneratedSolutionFields | src/stores/thinking.js:655 | the new solution keeps the old id and otherwise has the AI's fields |
| Thinking.OnlyReportSetsStep | src/stores/thinking.js:298-324 | only the understanding report moves the workflow to step 2, and no action's update touches `id` |
| Thinking.MindMapHitAfterStore | src/stores/thinking.js:676-705 | once a non-empty map is stored with its hash, the same inputs hit the cache |
| Thinking.RegenerateUnknownWritesNothing | src/stores/thinking.js:642-644 | an unknown solution id stops before the AI call and writes nothing |
| Thinking.RegenerateStringListStops | src/stores/thinking.js:642-644 | a string solution list spreads into characters without an id, so the call returns before the AI with nothing written, like an unknown id |
| Thinking.RegenerateKeepsId | src/stores/thinking.js:642-660 | the regenerated solution takes the old one's index and id; the others are kept |
| Thinking.CardsAfterEffect | src/stores/thinking.js:416-460 | only the analysed card changes; it ends completed with the result's fields, or with the rollback status and its old fields |
| Thinking.CardWritesCollapse | src/stores/thinking.js:424-456 | the interim 'analyzing' write is fully overwritten by the final write |
| Thinking.ThinkingStore.constructor | src/stores/thinking.js:72-89 | no session, not loading, no error, idle, no response yet |
| Thinking.ThinkingStore.SetLoading | src/stores/thinking.js:120-125 | loading is set; starting clears the error |
| Thinking.ThinkingStore.SetAiStatus | src/stores/thinking.js:132-140 | the status is set; a new request resets the response length |
| Thinking.ThinkingStore.HandleAiProgress | src/stores/thinking.js:146-149 | receiving, with the reported length |
| Thinking.ThinkingStore.HandleError | src/stores/thinking.js:155-160 | records the message, stops loading, goes idle |
| Thinking.ThinkingStore.UpdateCurrentSession | src/stores/thinking.js:207-212 | no session: nothing; otherwise the repository updates the session and its answer becomes the current session; the invariant holds |
| Thinking.ThinkingStore.CreateSession | src/stores/thinking.js:197-201 | the new session is stored first and becomes current |
| Thinking.ThinkingStore.LoadSession | src/stores/thinking.js:171-178 | a found session becomes current and its id is stored; an unknown id changes nothing |
| Thinking.ThinkingStore.LoadCurrentSession | src/stores/thinking.js:184-190 | the stored current session, if any, becomes current |
| Thinking.ThinkingStore.ResetSession | src/stores/thinking.js:217-222 | no current session, not loading, no error, idle; storage is not touched |
| Thinking.ThinkingStore.RunRequest | src/stores/thinking.js:237-266 | the request shape: the update is written and the status completed, or the error recorded with nothing written; loading ends |
| Thinking.ThinkingStore.GenerateQuestions | src/stores/thinking.js:234-267 | the normalised questions are written, or the error recorded with nothing written |
| Thinking.ThinkingStore.SaveAnswer | src/stores/thinking.js:275-291 | the upserted answers are written; a `null` answer or a non-list throws before writing |
| Thinking.ThinkingStore.GenerateUnderstandingReport | src/stores/thinking.js:298-324 | the report is written and the step set to 2, or the error recorded |
| Thinking.ThinkingStore.RecommendModels | src/stores/thinking.js:336-364 | returns and writes the recommendations with their defaults, or records and rethrows the error (a `null` result is a type error); idle afterwards either way |
| Thinking.ThinkingStore.GenerateAnalysisDimensions | src/stores/thinking.js:372-408 | the pending cards, model name and id are written; a result without a dimension array fails with a type error |
| Thinking.ThinkingStore.RunCardAction | src/stores/thinking.js:416-460 | the card is written as analysing, then merged and completed, or rolled back; other cards and sessions are untouched |
| Thinking.ThinkingStore.AnalyzeDimension | src/stores/thinking.js:416-460 | as above with rollback to pending; an unknown card writes nothing |
| Thinking.ThinkingStore.GenerateDeepAnalysisReport | src/stores/thinking.js:467-494 | the report text is written, or the error recorded |
| Thinking.ThinkingStore.ReanalyzeCard | src/stores/thinking.js:503-544 | as above with rollback to completed |
| Thinking.ThinkingStore.UpdateAnalysisCard | src/stores/thinking.js:551-560 | the found card is overlaid with the content; otherwise nothing is written |
| Thinking.ThinkingStore.DeleteAnalysisCard | src/stores/thinking.js:566-571 | every card with the id is removed and the others keep their order; a non-list or a `null` card writes nothing |
| Thinking.ThinkingStore.GenerateSolutions | src/stores/thinking.js:582-608 | the solutions and the recommendation are written, or the error recorded; a `null` result fails with a type error |
| Thinking.ThinkingStore.UpdateSolution | src/stores/thinking.js:617-626 | the found solution is overlaid with the content; otherwise nothing is written |
| Thinking.ThinkingStore.RegenerateSolution | src/stores/thinking.js:635-668 | the regenerated solution replaces the old one under its id; an unknown id, or a string list whose characters have no id, stops with the status still requesting and no error; a list that is neither an array nor a string fails with a type error |
| Thinking.ThinkingStore.GenerateMindMap | src/stores/thinking.js:676-713 | no AI call iff the stored map is truthy with the same hash; otherwise the map and hash are written, or the error recorded |

## Left out

- The AI calls themselves (`callDeepSeek` and the `ai.*` wrappers that build messages and stream over the network): each action takes the call's outcome as a parameter.
- JSON text: `JSON.parse` is a parameter of the parser and `JSON.stringify` one of the store. The model does not fix key order, number formatting or escaping.
- `generateId` and the clock: ids and `new Date().toISOString()` are parameters. One timestamp stands for every timestamp taken within one action.
- The status messages passed to `setAiStatus` and `aiStatusMessage`, and the i18n lookups other than the model name: text only. Translation is a parameter.
- The `currentStep` and `problem` getters of the store: they are reads of the current session.
- `exportSession`, `clearAllData` and the API-key helpers of the AI service: they are outside the modelled core.
- The `feedback` parameter of `reanalyzeCard` and `regenerateSolution`: it only reaches the prompt.
- Concurrency: actions run one at a time, and nothing else writes `localStorage` between them.
- Storage that is not well formed (a sessions value that is not a list, or a current id stored as JSON): `WellFormed` excludes these. Raw text that `JSON.parse` would accept is a document.
- Spreading an array or a string into an object (index keys) is modelled as spreading an empty object, and a non-list `interviewAnswers` or card list as a throw.
- Cards or solutions that are primitives: a status write on a primitive is modelled as a spread of an empty object.
- `===` on objects compares references. The model compares ids by value.
- Prototype keys: `resetPrompt`'s `defaults[key]` is modelled as an own-key lookup.
- Prompts.GetPrompt: does not model `RegExp` metacharacters in keys or `$` patterns in values. It requires plain placeholder names and `$`-free values, and non-string content reads as empty.
- JsonRecovery.CompressAnalysisCards: an object field with a numeric `length` above 200 would make `truncate` call a missing `substring`; the model passes such an object through unchanged.
- The engine's `TypeError` message is the constant `TypeErrorMessage`.
- JsonRecovery.TruncateString: when the 200th code unit is the first half of a surrogate pair, JavaScript keeps that lone half, which a Dafny string cannot hold; the model puts U+FFFD in its place, so the result has the same length in code units but not the same last unit.
- Throws outside a `try` (in `saveAnswer`, `updateAnalysisCard`, `deleteAnalysisCard`, and in `analyzeDimension` and `reanalyzeCard` before the request starts) are modelled as nothing written; the rejected promise the caller sees is not modelled.

=== FILE: json.dfy ===
/**
 * Parsed JSON values as the client sees them after `JSON.parse`, with the
 * JavaScript notions the code relies on: truthiness, property access and
 * object spread.
 */
module Json {
  import opened Wrappers

  /** A JSON value. Numbers are exact reals; JSON text has no NaN or infinity. */
  datatype Json =
    | JNull
    | JBool(b: bool)
    | JNumber(n: real)
    | JString(s: string)
    | JArray(items: seq<Json>)
    | JObject(fields: map<string, Json>)

  /** The own fields of a plain object, by name. */
  type Obj = map<string, Json>

  /** JavaScript truthiness: `null`, `false`, `0` and `""` are falsy, everything else is truthy. */
  predicate Truthy(j: Json)
  {
    match j
    case JNull => false
    case JBool(b) => b
    case JNumber(n) => n != 0.0
    case JString(s) => s != ""
    case _ => true
  }

  /** Truthiness of a possibly-undefined value (`None` is `undefined`, which is falsy). */
  predicate IsSet(v: Option<Json>)
  {
    v.Some? && Truthy(v.value)
  }

  /** Property read `v.name`; `None` is `undefined` (also for every non-object value). */
  function Get(j: Json, name: string): Option<Json>
  {
    if j.JObject? && name in j.fields then Some(j.fields[name]) else None
  }

  /** `v || fallback` for a possibly-undefined value. */
  function OrElse(v: Option<Json>, fallback: Json): Json
  {
    if IsSet(v) then v.value else fallback
  }

  /** The fields `{...v}` contributes to an object literal: an object's own fields, nothing for `null`. */
  function Spread(j: Json): Obj
  {
    if j.JObject? then j.fields else map[]
  }

  /**
   * The entries of an update object literal; `None` is a field whose value
   * is `undefined`, which `JSON.stringify` drops and a later read sees as
   * absent.
   */
  type Patch = map<string, Option<Json>>

  /** `{...s, ...p}` as it reads back from storage: defined fields of `p` win, undefined ones vanish. */
  function Assign(s: Obj, p: Patch): (r: Obj)
    ensures forall k :: k in r <==> (k in p && p[k].Some?) || (k !in p && k in s)
    ensures forall k :: k in p && p[k].Some? ==> r[k] == p[k].value
    ensures forall k :: k !in p && k in s ==> r[k] == s[k]
  {
    map k | k in s.Keys + p.Keys && (k in p ==> p[k].Some?) :: if k in p then p[k].value else s[k]
  }

  // ---------------------------------------------------------------------
  // JavaScript strings
  // ---------------------------------------------------------------------

  /** `s` holds `pat` starting at position `k`. */
  predicate OccursAt(s: string, pat: string, k: int)
  {
    0 <= k && k + |pat| <= |s| && s[k..k + |pat|] == pat
  }

  /** The UTF-16 encoding of one character: itself, or a surrogate pair above the basic plane. */
  function UnitsOf(c: char): (u: seq<bv16>)
    ensures 1 <= |u| <= 2
    ensures (c as int) < 0x1_0000 ==> u == [(c as int) as bv16]
  {
    var n := c as int;
    if n < 0x1_0000 then [n as bv16]
    else [(0xD800 + (n - 0x1_0000) / 0x400) as bv16, (0xDC00 + (n - 0x1_0000) % 0x400) as bv16]
  }

  /** The UTF-16 code units of a text: what `length`, `charCodeAt` and `substring` count. */
  function CodeUnits(s: string): (u: seq<bv16>)
    ensures |s| <= |u| <= 2 * |s|
  {
    if s == [] then [] else UnitsOf(s[0]) + CodeUnits(s[1..])
  }

  /** Code units of a concatenation are the concatenated code units. */
  lemma {:induction false} CodeUnitsAppend(a: string, b: string)
    ensures CodeUnits(a + b) == CodeUnits(a) + CodeUnits(b)
  {
    if a != [] {
      assert (a + b)[0] == a[0];
      assert (a + b)[1..] == a[1..] + b;
      CodeUnitsAppend(a[1..], b);
      assert CodeUnits(a + b) == UnitsOf(a[0]) + CodeUnits(a[1..] + b);
    } else {
      assert a + b == b;
    }
  }

  /** How many UTF-16 code units one character takes. */
  function UnitCount(c: char): (n: nat)
    ensures 1 <= n <= 2
  {
    if (c as int) < 0x1_0000 then 1 else 2
  }

  /** `s.length`, which counts UTF-16 code units. */
  function UnitLength(s: string): (n: nat)
    ensures |s| <= n <= 2 * |s|
  {
    if s == [] then 0 else UnitCount(s[0]) + UnitLength(s[1..])
  }

  /** `length` is the number of code units the encoding produces. */
  lemma {:induction false} UnitLengthIsLength(s: string)
    ensures UnitLength(s) == |CodeUnits(s)|
  {
    if s != [] {
      UnitLengthIsLength(s[1..]);
    }
  }

  /** The length of a concatenation is the sum of the lengths. */
  lemma {:induction false} UnitLengthAppend(a: string, b: string)
    ensures UnitLength(a + b) == UnitLength(a) + UnitLength(b)
  {
    if a != [] {
      assert (a + b)[0] == a[0];
      assert (a + b)[1..] == a[1..] + b;
      UnitLengthAppend(a[1..], b);
    } else {
      assert a + b == b;
    }
  }
}

=== FILE: json_recovery.dfy ===
/**
 * Recovery of a JSON value from free-form language-model output
 * (src/services/ai.js): the text cleaner, the cascade of extraction
 * strategies, the aggressive retry, and the card compression sent to the
 * report prompt.
 *
 * `JSON.parse` is a library call; every operation that needs it takes it as
 * the parameter `parse`, which yields `None` where the library throws.
 */
module JsonRecovery {
  import opened Wrappers
  import opened Json

  // ---------------------------------------------------------------------
  // Character classes and scanning helpers
  // ---------------------------------------------------------------------

  /** JavaScript's `\s`, which is also the set `String.prototype.trim` removes. */
  predicate IsSpace(c: char)
  {
    c == ' ' || c == '\t' || c == '\n' || c == '\U{000B}' || c == '\U{000C}' || c == '\r'
    || c == '\U{00A0}' || c == '\U{1680}' || ('\U{2000}' <= c <= '\U{200A}')
    || c == '\U{2028}' || c == '\U{2029}' || c == '\U{202F}' || c == '\U{205F}'
    || c == '\U{3000}' || c == '\U{FEFF}'
  }

  /** Length of the longest all-space prefix of `s`: what a greedy `\s*` consumes. */
  function SpaceRun(s: string): (n: nat)
    ensures n <= |s|
    ensures forall k :: 0 <= k < n ==> IsSpace(s[k])
    ensures n < |s| ==> !IsSpace(s[n])
  {
    if s != [] && IsSpace(s[0]) then 1 + SpaceRun(s[1..]) else 0
  }

  /** `s.trim()`. */
  function Trim(s: string): (r: string)
    ensures exists a, b :: (0 <= a <= b <= |s| && r == s[a..b]
      && (forall k :: 0 <= k < a ==> IsSpace(s[k]))
      && (forall k :: b <= k < |s| ==> IsSpace(s[k])))
    ensures r == [] || (!IsSpace(r[0]) && !IsSpace(r[|r| - 1]))
  {
    var a := SpaceRun(s);
    var b := TrimEndIndex(s, a);
    s[a..b]
  }

  /** End of `s` once its trailing spaces are dropped, never below `a`. */
  function TrimEndIndex(s: string, a: nat): (b: nat)
    requires a <= |s|
    ensures a <= b <= |s|
    ensures forall k :: b <= k < |s| ==> IsSpace(s[k])
    ensures a < b ==> !IsSpace(s[b - 1])
    decreases |s|
  {
    if a < |s| && IsSpace(s[|s| - 1]) then
      var b := TrimEndIndex(s[..|s| - 1], a);
      assert forall k :: b <= k < |s| - 1 ==> s[k] == s[..|s| - 1][k];
      b
    else |s|
  }

  /** `s.indexOf(pat, from)`, with `None` for -1. */
  function IndexOfFrom(s: string, pat: string, from: nat): (r: Option<nat>)
    ensures r.Some? ==> from <= r.value && OccursAt(s, pat, r.value)
    ensures r.Some? ==> forall k :: from <= k < r.value ==> !OccursAt(s, pat, k)
    ensures r.None? ==> forall k :: from <= k ==> !OccursAt(s, pat, k)
    decreases |s| - from
  {
    if from + |pat| > |s| then None
    else if s[from..from + |pat|] == pat then Some(from)
    else IndexOfFrom(s, pat, from + 1)
  }

  /** `s.indexOf(c)`: the first index holding `c`. */
  function FirstIndexOf(s: string, c: char): (r: Option<nat>)
    ensures r.Some? ==> r.value < |s| && s[r.value] == c && forall k :: 0 <= k < r.value ==> s[k] != c
    ensures r.None? ==> forall k :: 0 <= k < |s| ==> s[k] != c
  {
    if s == [] then None
    else if s[0] == c then Some(0)
    else match FirstIndexOf(s[1..], c)
      case None => None
      case Some(i) => Some(i + 1)
  }

  /** `s.lastIndexOf(c)`: the last index holding `c`. */
  function LastIndexOf(s: string, c: char): (r: Option<nat>)
    ensures r.Some? ==> r.value < |s| && s[r.value] == c && forall k :: r.value < k < |s| ==> s[k] != c
    ensures r.None? ==> forall k :: 0 <= k < |s| ==> s[k] != c
  {
    if s == [] then None
    else if s[|s| - 1] == c then Some(|s| - 1)
    else LastIndexOf(s[..|s| - 1], c)
  }

  // ---------------------------------------------------------------------
  // cleanJsonString: three global regular-expression replacements
  // ---------------------------------------------------------------------

  predicate IsCloser(c: char)
  {
    c == '}' || c == ']'
  }

  /** The text after a comma continues with `\s*[}\]]`: the comma is a trailing comma. */
  predicate ClosesAfterSpace(s: string)
  {
    SpaceRun(s) < |s| && IsCloser(s[SpaceRun(s)])
  }

  /**
   * `s.replace(/,(\s*[}\]])/g, '$1')`: scanning left to right, a match drops
   * the comma, keeps the spaces and the closer, and the scan resumes after
   * the closer; elsewhere one character is copied.
   */
  function RemoveTrailingCommas(s: string): string
    decreases |s|
  {
    if s == [] then []
    else if s[0] == ',' && ClosesAfterSpace(s[1..]) then
      var n := SpaceRun(s[1..]);
      s[1..n + 2] + RemoveTrailingCommas(s[n + 2..])
    else
      [s[0]] + RemoveTrailingCommas(s[1..])
  }

  /** Reference definition: every character of `s` except the commas whose next non-space character is `}` or `]`. */
  function WithoutTrailingCommas(s: string): string
  {
    if s == [] then []
    else (if s[0] == ',' && ClosesAfterSpace(s[1..]) then [] else [s[0]]) + WithoutTrailingCommas(s[1..])
  }

  /** A match of `:\s*\*\*...\*\*` at the head of the text: its length and the captured value. */
  datatype BoldMatch = BoldMatch(len: nat, value: string)

  /** Length of the longest prefix of `s` without a double quote: a greedy `[^"]*`. */
  function QuoteFreeRun(s: string): (n: nat)
    ensures n <= |s|
    ensures forall k :: 0 <= k < n ==> s[k] != '"'
    ensures n < |s| ==> s[n] == '"'
  {
    if s != [] && s[0] != '"' then 1 + QuoteFreeRun(s[1..]) else 0
  }

  /** A character `[^,}\]"]` admits. */
  predicate InBareValue(c: char)
  {
    c != ',' && c != '}' && c != ']' && c != '"'
  }

  /** Length of the longest prefix of `s` made of `[^,}\]"]` characters. */
  function BareRun(s: string): (n: nat)
    ensures n <= |s|
    ensures forall k :: 0 <= k < n ==> InBareValue(s[k])
    ensures n < |s| ==> !InBareValue(s[n])
  {
    if s != [] && InBareValue(s[0]) then 1 + BareRun(s[1..]) else 0
  }

  /** Index of the colon's `**`: the colon at the head, then the spaces `\s*` takes. */
  function BoldStart(s: string): (b: nat)
    requires s != []
    ensures 1 <= b <= |s|
  {
    1 + SpaceRun(s[1..])
  }

  /** Everything between the colon and the `**` is space. */
  lemma BoldStartSpaces(s: string)
    requires s != []
    ensures forall k :: 1 <= k < BoldStart(s) ==> IsSpace(s[k])
  {
    assert forall k :: 1 <= k < BoldStart(s) ==> s[k] == s[1..][k - 1];
  }

  /** A `**` right after the colon at the head of `s` (and its spaces). */
  predicate BoldAfterColon(s: string)
  {
    s != [] && s[0] == ':' && BoldStart(s) + 1 < |s| && s[BoldStart(s)] == '*' && s[BoldStart(s) + 1] == '*'
  }

  /** A match of `:\s*\*\*"([^"]*)"\*\*` at the head of `s`. */
  function MatchQuotedBold(s: string): (m: Option<BoldMatch>)
    ensures m.Some? ==> 0 < m.value.len <= |s|
    ensures m.Some? ==> BoldAfterColon(s)
    ensures m.Some? ==> (m.value.len == BoldStart(s) + |m.value.value| + 6
      && s[BoldStart(s) + 2] == '"' && s[BoldStart(s) + 3..m.value.len - 3] == m.value.value
      && s[m.value.len - 3] == '"' && s[m.value.len - 2] == '*' && s[m.value.len - 1] == '*'
      && forall k :: 0 <= k < |m.value.value| ==> m.value.value[k] != '"')
  {
    if !BoldAfterColon(s) then None
    else
      var p := BoldStart(s) + 2;
      if p < |s| && s[p] == '"' then
        var e := p + 1 + QuoteFreeRun(s[p + 1..]);
        if e + 2 < |s| && s[e + 1] == '*' && s[e + 2] == '*' then
          Some(BoldMatch(e + 3, s[p + 1..e]))
        else None
      else None
  }

  /**
   * The backtracking of the greedy `([^,}\]"]+)\*\*` inside the run `t`:
   * the largest `k` with `1 <= k <= bound` such that `t[k..k+2] == "**"`.
   */
  function LastStarPair(t: string, bound: int): (k: Option<nat>)
    requires bound + 1 < |t|
    ensures k.Some? ==> 1 <= k.value <= bound && t[k.value] == '*' && t[k.value + 1] == '*'
    ensures k.Some? ==> forall j :: k.value < j <= bound ==> !(t[j] == '*' && t[j + 1] == '*')
    ensures k.None? ==> forall j :: 1 <= j <= bound ==> !(t[j] == '*' && t[j + 1] == '*')
    decreases bound
  {
    if bound < 1 then None
    else if t[bound] == '*' && t[bound + 1] == '*' then Some(bound)
    else LastStarPair(t, bound - 1)
  }

  /** A match of `:\s*\*\*([^,}\]"]+)\*\*` at the head of `s`. */
  function MatchBareBold(s: string): (m: Option<BoldMatch>)
    ensures m.Some? ==> 0 < m.value.len <= |s|
    ensures m.Some? ==> BoldAfterColon(s)
    ensures m.Some? ==> (m.value.value != [] && m.value.len == BoldStart(s) + |m.value.value| + 4
      && s[BoldStart(s) + 2..m.value.len - 2] == m.value.value && s[m.value.len - 2] == '*' && s[m.value.len - 1] == '*'
      && forall k :: 0 <= k < |m.value.value| ==> InBareValue(m.value.value[k]))
    ensures BoldAfterColon(s) ==> var t := BareText(s);
      forall j :: (if m.Some? then |m.value.value| else 0) < j < |t| - 1 ==> !(t[j] == '*' && t[j + 1] == '*')
  {
    if !BoldAfterColon(s) then None
    else
      var t := BareText(s);
      var last := LastStarPair(t, |t| - 2);
      if last.None? then None
      else
        var k := last.value;
        BareBoldSpan(s, BoldStart(s) + 2, t, k);
        Some(BoldMatch(BoldStart(s) + k + 4, t[..k]))
  }

  /** The run of `[^,}\]"]` characters after the colon's `**`. */
  function BareText(s: string): (t: string)
    requires BoldAfterColon(s)
    ensures var p := BoldStart(s) + 2; p + |t| <= |s| && t == s[p..p + |t|]
    ensures forall i :: 0 <= i < |t| ==> InBareValue(t[i])
  {
    var p := BoldStart(s) + 2;
    s[p..p + BareRun(s[p..])]
  }

  /** The bare-bold match from the `**` after the colon to the `**` that closes the capture. */
  lemma BareBoldSpan(s: string, p: nat, t: string, k: nat)
    requires 2 <= p && p + |t| <= |s| && s[p - 2] == '*' && s[p - 1] == '*'
    requires t == s[p..p + |t|] && forall i :: 0 <= i < |t| ==> InBareValue(t[i])
    requires 1 <= k && k + 1 < |t| && t[k] == '*' && t[k + 1] == '*'
    ensures s[p..p + k] == t[..k] && s[p + k] == '*' && s[p + k + 1] == '*'
    ensures forall i :: 0 <= i < k ==> InBareValue(t[..k][i])
  {
  }

  // s.replace(/:\s*\*\*"([^"]*)"\*\*/g, ':"$1"')
  function UnboldQuoted(s: string): string
    decreases |s|
  {
    if s == [] then []
    else match MatchQuotedBold(s)
      case Some(m) => ":\"" + m.value + "\"" + UnboldQuoted(s[m.len..])
      case None => [s[0]] + UnboldQuoted(s[1..])
  }

  // s.replace(/:\s*\*\*([^,}\]"]+)\*\*/g, ':"$1"')
  function UnboldBare(s: string): string
    decreases |s|
  {
    if s == [] then []
    else match MatchBareBold(s)
      case Some(m) => ":\"" + m.value + "\"" + UnboldBare(s[m.len..])
      case None => [s[0]] + UnboldBare(s[1..])
  }

  /** `cleanJsonString`: the three rewrites, in the source's order. */
  function CleanJsonString(s: string): string
  {
    UnboldBare(UnboldQuoted(RemoveTrailingCommas(s)))
  }

  // ---------------------------------------------------------------------
  // parseJsonResponse: the extraction cascade
  // ---------------------------------------------------------------------

  const Fence: string := "```"
  const JsonFence: string := "```json"

  /**
   * Where `/<opener>\s*([\s\S]*?)\s*```/` matches `s`: the index `i` of the
   * leftmost `opener` and the index `q` of the first "```" after it. (A
   * later opener can match only if this one does, since a "```" after it is
   * also after this one.)
   */
  function FenceSpan(s: string, opener: string): (r: Option<(nat, nat)>)
    ensures r.Some? ==> (OccursAt(s, opener, r.value.0) && r.value.0 + |opener| <= r.value.1
      && OccursAt(s, Fence, r.value.1))
    ensures r.Some? ==> forall k :: 0 <= k < r.value.0 ==> !OccursAt(s, opener, k)
    ensures r.Some? ==> forall k :: r.value.0 + |opener| <= k < r.value.1 ==> !OccursAt(s, Fence, k)
    ensures (forall k :: !OccursAt(s, opener, k)) ==> r.None?
    ensures (exists i, q :: OccursAt(s, opener, i) && i + |opener| <= q && OccursAt(s, Fence, q)) ==> r.Some?
  {
    match IndexOfFrom(s, opener, 0)
    case None => None
    case Some(i) =>
      match IndexOfFrom(s, Fence, i + |opener|)
      case None => None
      case Some(q) => Some((i, q))
  }

  /**
   * The capture of the fence regular expression, trimmed as the source
   * does: the lazy group stops before the spaces that precede the closing
   * fence and `\s*` takes the spaces after the opener, so capture-then-trim
   * is the text between opener and closing fence, trimmed.
   */
  function FenceContent(s: string, opener: string): Option<string>
  {
    match FenceSpan(s, opener)
    case None => None
    case Some((i, q)) => Some(Trim(s[i + |opener|..q]))
  }

  /**
   * Strategy 3: `s.substring(s.indexOf('{'), s.lastIndexOf('}') + 1)` when a
   * `{` exists and the last `}` lies after it.
   */
  function BraceSlice(s: string): (r: Option<string>)
    ensures r.Some? <==> exists i, j :: 0 <= i < j < |s| && s[i] == '{' && s[j] == '}'
    ensures r.Some? ==> exists f, l :: (0 <= f < l < |s| && s[f] == '{' && s[l] == '}' && r.value == s[f..l + 1]
      && (forall k :: 0 <= k < f ==> s[k] != '{')
      && (forall k :: l < k < |s| ==> s[k] != '}'))
    ensures r.Some? ==> |r.value| >= 2 && r.value[0] == '{' && r.value[|r.value| - 1] == '}'
  {
    var first := FirstIndexOf(s, '{');
    var last := LastIndexOf(s, '}');
    if first.Some? && last.Some? && last.value > first.value then
      Some(s[first.value..last.value + 1])
    else
      None
  }

  /** The text each strategy would hand to the cleaner, in cascade order (`None`: the strategy does not apply). */
  function Candidates(s: string): seq<Option<string>>
  {
    [FenceContent(s, JsonFence), FenceContent(s, Fence), BraceSlice(s), Some(Trim(s))]
  }

  /** One strategy: clean its text and parse it; a falsy parse result counts as failure (`if (result)`). */
  function Attempt(parse: string -> Option<Json>, candidate: Option<string>): (r: Option<Json>)
    ensures r.Some? ==> Truthy(r.value)
    ensures r.Some? ==> candidate.Some? && parse(CleanJsonString(candidate.value)) == r
    ensures (candidate.Some? && parse(CleanJsonString(candidate.value)).Some?
      && Truthy(parse(CleanJsonString(candidate.value)).value)) ==> r == parse(CleanJsonString(candidate.value))
  {
    match candidate
    case None => None
    case Some(text) =>
      var parsed := parse(CleanJsonString(text));
      if parsed.Some? && Truthy(parsed.value) then parsed else None
  }

  /** The first candidate whose attempt succeeds, trying them in order. */
  function FirstSuccess(parse: string -> Option<Json>, cs: seq<Option<string>>): (r: Option<Json>)
    ensures r.Some? ==> Truthy(r.value)
    ensures r.None? <==> forall k :: 0 <= k < |cs| ==> Attempt(parse, cs[k]).None?
    ensures r.Some? ==> exists k :: (0 <= k < |cs| && r == Attempt(parse, cs[k])
      && forall j :: 0 <= j < k ==> Attempt(parse, cs[j]).None?)
  {
    if cs == [] then None
    else
      var head := Attempt(parse, cs[0]);
      if head.Some? then head
      else
        var r := FirstSuccess(parse, cs[1..]);
        assert forall k :: 1 <= k < |cs| ==> cs[k] == cs[1..][k - 1];
        if r.Some? then
          var k :| 0 <= k < |cs| - 1 && r == Attempt(parse, cs[1..][k])
            && forall j :: 0 <= j < k ==> Attempt(parse, cs[1..][j]).None?;
          assert r == Attempt(parse, cs[k + 1]);
          r
        else r
  }

  /**
   * `extractAndParse`: the four strategies with early returns (`None` is
   * `return null`); the first strategy whose parse is truthy wins.
   */
  function ExtractAndParse(parse: string -> Option<Json>, s: string): (r: Option<Json>)
    ensures r == FirstSuccess(parse, Candidates(s))
  {
    var c := Candidates(s);
    var fenced := Attempt(parse, c[0]);
    if fenced.Some? then fenced
    else
      var anyFence := Attempt(parse, c[1]);
      if anyFence.Some? then anyFence
      else
        var braces := Attempt(parse, c[2]);
        assert c[1..][1..][1..] == [c[3]];
        if braces.Some? then braces
        else Attempt(parse, c[3])
  }

  // The aggressive clean-up: .replace(/\*\*/g, '').replace(/\*/g, '').replace(/`/g, ''),
  // which together delete every asterisk and every backtick.
  function StripMarkdown(s: string): (r: string)
    ensures forall k :: 0 <= k < |r| ==> r[k] != '*' && r[k] != '`'
  {
    if s == [] then []
    else
      var rest := StripMarkdown(s[1..]);
      if s[0] == '*' || s[0] == '`' then rest else [s[0]] + rest
  }

  /** The clean-up deletes every `*` and every backtick, and keeps every other character. */
  lemma {:induction false} StripMarkdownDeletes(s: string)
    ensures multiset(StripMarkdown(s)) == multiset(s)[ '*' := 0 ][ '`' := 0 ]
  {
    if s != [] {
      StripMarkdownDeletes(s[1..]);
      assert s == [s[0]] + s[1..];
    }
  }

  /** The message of the error `parseJsonResponse` throws when both passes fail. */
  const FormatErrorMessage: string := "AI 返回内容格式错误，无法解析 JSON。请重试。"

  /** `parseJsonResponse`: the cascade on the raw text, then once more on the stripped text, else throw. */
  function ParseJsonResponse(parse: string -> Option<Json>, content: string): (r: Result<Json>)
    ensures r.Success? ==> Truthy(r.value)
    ensures ExtractAndParse(parse, content).Some? ==> r == Success(ExtractAndParse(parse, content).value)
    ensures ExtractAndParse(parse, content).None? ==> r.Success? == ExtractAndParse(parse, StripMarkdown(content)).Some?
    ensures ExtractAndParse(parse, content).None? && ExtractAndParse(parse, StripMarkdown(content)).Some? ==>
      r == Success(ExtractAndParse(parse, StripMarkdown(content)).value)
    ensures r.Failure? ==> r.error == FormatErrorMessage
  {
    var first := ExtractAndParse(parse, content);
    if first.Some? then Success(first.value)
    else
      var last := ExtractAndParse(parse, StripMarkdown(content));
      if last.Some? then Success(last.value) else Failure(FormatErrorMessage)
  }

  // ---------------------------------------------------------------------
  // compressAnalysisCards
  // ---------------------------------------------------------------------

  const TruncateLength: nat := 200

  /** The five fields kept for the report prompt; `dimension` may be undefined. */
  datatype CompressedCard = CompressedCard(
    dimension: Option<Json>,
    phenomenon: Json,
    cause: Json,
    impact: Json,
    hiddenFactors: Json)

  /** U+FFFD, which stands for the half of a surrogate pair that a cut leaves behind. */
  const Replacement: char := '\U{FFFD}'

  /** The longest prefix of `s` whose UTF-16 encoding has at most `n` code units. */
  function UnitPrefix(s: string, n: nat): (p: string)
    ensures p <= s && UnitLength(p) <= n
    ensures |p| < |s| ==> UnitLength(p) + UnitCount(s[|p|]) > n
  {
    if s == [] || UnitCount(s[0]) > n then []
    else
      var rest := UnitPrefix(s[1..], n - UnitCount(s[0]));
      assert ([s[0]] + rest)[0] == s[0] && ([s[0]] + rest)[1..] == rest;
      [s[0]] + rest
  }

  /**
   * `s.substring(0, n)` for a text longer than `n` code units: the first `n`
   * units. When unit `n` is the first half of a surrogate pair, that half
   * is all the cut keeps of the pair; a string of characters cannot hold
   * it, so it stands as U+FFFD.
   */
  function CutUnits(s: string, n: nat): (r: string)
    requires n < UnitLength(s)
    ensures UnitLength(r) == n
    ensures r <= s || (r != [] && r[..|r| - 1] <= s && |r| <= |s|
      && r[|r| - 1] == Replacement && UnitCount(s[|r| - 1]) == 2)
  {
    var p := UnitPrefix(s, n);
    if UnitLength(p) == n then p
    else
      PairCut(s, n, p);
      p + [Replacement]
  }

  /** A prefix that stops short of `n` units stops before a surrogate pair that straddles unit `n`. */
  lemma PairCut(s: string, n: nat, p: string)
    requires n < UnitLength(s) && p == UnitPrefix(s, n) && UnitLength(p) != n
    ensures |p| < |s| && UnitCount(s[|p|]) == 2
    ensures UnitLength(p + [Replacement]) == n && (p + [Replacement])[..|p|] == p
  {
    ProperUnitPrefix(s, n, p);
    UnitLengthAppend(p, [Replacement]);
    assert UnitLength([Replacement]) == 1;
  }

  /** A prefix with fewer units than the whole text is a proper prefix. */
  lemma ProperUnitPrefix(s: string, n: nat, p: string)
    requires n < UnitLength(s) && p <= s && UnitLength(p) <= n
    ensures |p| < |s|
  {
    assert p != s;
    assert p == s[..|p|];
  }

  /**
   * `truncate(str, 200)`: falsy or missing gives `""`; a string longer than
   * 200 UTF-16 code units keeps its first 200 units plus `...`. Non-string
   * values have no `substring`: an array longer than 200 makes the call
   * throw (`None`), and other values pass through.
   */
  function Truncate(v: Option<Json>): Option<Json>
  {
    if !IsSet(v) then Some(JString(""))
    else match v.value
      case JString(s) => if UnitLength(s) > TruncateLength then Some(JString(CutUnits(s, TruncateLength) + "...")) else v
      case JArray(items) => if |items| > TruncateLength then None else v
      case _ => v
  }

  /** One card of the `map`; reading a field of `null` throws (`None`). */
  function CompressCard(card: Json): Option<CompressedCard>
  {
    if card.JNull? then None
    else
      var phenomenon := Truncate(Get(card, "phenomenon"));
      var cause := Truncate(Get(card, "cause"));
      var impact := Truncate(Get(card, "impact"));
      var hidden := Truncate(Get(card, "hiddenFactors"));
      if phenomenon.None? || cause.None? || impact.None? || hidden.None? then None
      else Some(CompressedCard(Get(card, "dimension"), phenomenon.value, cause.value, impact.value, hidden.value))
  }

  /** The `map` over the card list; the first card that throws aborts it. */
  function CompressAll(cards: seq<Json>): (r: Option<seq<CompressedCard>>)
    ensures r.Some? <==> forall i :: 0 <= i < |cards| ==> CompressCard(cards[i]).Some?
    ensures r.Some? ==> (|r.value| == |cards|
      && forall i :: 0 <= i < |cards| ==> Some(r.value[i]) == CompressCard(cards[i]))
  {
    if cards == [] then Some([])
    else
      var head := CompressCard(cards[0]);
      var tail := CompressAll(cards[1..]);
      if head.None? || tail.None? then None
      else
        assert forall i :: 1 <= i < |cards| ==> cards[i] == cards[1..][i - 1];
        Some([head.value] + tail.value)
  }

  /** `compressAnalysisCards`: a non-array gives `[]`; `None` is a thrown `TypeError`. */
  function CompressAnalysisCards(cards: Json): (r: Option<seq<CompressedCard>>)
    ensures !cards.JArray? ==> r == Some([])
    ensures cards.JArray? && r.Some? ==> (|r.value| == |cards.items|
      && forall i :: 0 <= i < |cards.items| ==> Some(r.value[i]) == CompressCard(cards.items[i]))
    ensures cards.JArray? ==> (r.None? <==> exists i :: 0 <= i < |cards.items| && CompressCard(cards.items[i]).None?)
  {
    if cards.JArray? then CompressAll(cards.items) else Some([])
  }

  // ---------------------------------------------------------------------
  // Properties of the cleaner
  // ---------------------------------------------------------------------

  /** No comma of `s` is followed (after spaces) by `}` or `]`. */
  predicate NoTrailingComma(s: string)
  {
    forall i :: 0 <= i < |s| && s[i] == ',' ==> !ClosesAfterSpace(s[i + 1..])
  }

  /** No colon of `s` is followed (after spaces) by `**`. */
  predicate NoBoldAfterColon(s: string)
  {
    forall i :: 0 <= i < |s| ==> !BoldAfterColon(s[i..])
  }

  /** A prefix without commas passes through the reference definition untouched. */
  lemma {:induction false} WithoutTrailingCommasSplit(t: string, m: nat)
    requires m <= |t|
    requires forall k :: 0 <= k < m ==> t[k] != ','
    ensures WithoutTrailingCommas(t) == t[..m] + WithoutTrailingCommas(t[m..])
  {
    if m > 0 {
      assert t[0] != ',';
      WithoutTrailingCommasSplit(t[1..], m - 1);
      assert t[1..][m - 1..] == t[m..];
      assert t[..m] == [t[0]] + t[1..][..m - 1];
    }
  }

  /**
   * The scanning replacement removes exactly the commas whose next
   * non-space character is `}` or `]`, and keeps every other character
   * (the spaces and the closer included) in order.
   */
  lemma {:induction false} RemoveTrailingCommasRemovesExactly(s: string)
    ensures RemoveTrailingCommas(s) == WithoutTrailingCommas(s)
    decreases |s|
  {
    if s != [] {
      if s[0] == ',' && ClosesAfterSpace(s[1..]) {
        var n := SpaceRun(s[1..]);
        RemoveTrailingCommasRemovesExactly(s[n + 2..]);
        TrailingCommaStep(s);
      } else {
        RemoveTrailingCommasRemovesExactly(s[1..]);
      }
    }
  }

  /** The spaces and the closer after a trailing comma hold no comma. */
  lemma TrailingRunNoComma(u: string)
    requires ClosesAfterSpace(u)
    ensures forall k :: 0 <= k < SpaceRun(u) + 1 ==> u[k] != ','
  {
    forall k | 0 <= k < SpaceRun(u) + 1 ensures u[k] != ',' {
      if k < SpaceRun(u) {
        assert IsSpace(u[k]);
      }
    }
  }

  /** One trailing comma: the scanner's jump over the run agrees with the reference definition. */
  lemma TrailingCommaStep(s: string)
    requires s != [] && s[0] == ',' && ClosesAfterSpace(s[1..])
    requires RemoveTrailingCommas(s[SpaceRun(s[1..]) + 2..]) == WithoutTrailingCommas(s[SpaceRun(s[1..]) + 2..])
    ensures RemoveTrailingCommas(s) == WithoutTrailingCommas(s)
  {
    var u := s[1..];
    var n := SpaceRun(u);
    assert RemoveTrailingCommas(s) == s[1..n + 2] + RemoveTrailingCommas(s[n + 2..]);
    assert WithoutTrailingCommas(s) == [] + WithoutTrailingCommas(u) == WithoutTrailingCommas(u);
    TrailingRunNoComma(u);
    WithoutTrailingCommasSplit(u, n + 1);
    assert u[..n + 1] == s[1..n + 2];
    assert u[n + 1..] == s[n + 2..];
  }

  /** Text with no trailing comma is left unchanged by the comma rewrite. */
  lemma {:induction false} RemoveTrailingCommasIdentity(s: string)
    requires NoTrailingComma(s)
    ensures RemoveTrailingCommas(s) == s
    decreases |s|
  {
    if s != [] {
      assert !(s[0] == ',' && ClosesAfterSpace(s[1..]));
      forall i | 0 <= i < |s[1..]| && s[1..][i] == ','
        ensures !ClosesAfterSpace(s[1..][i + 1..])
      {
        assert s[1..][i + 1..] == s[i + 2..];
      }
      RemoveTrailingCommasIdentity(s[1..]);
    }
  }

  /** Text with no `**` after a colon is left unchanged by both bold rewrites. */
  lemma {:induction false} UnboldIdentity(s: string)
    requires NoBoldAfterColon(s)
    ensures UnboldQuoted(s) == s && UnboldBare(s) == s
    decreases |s|
  {
    if s != [] {
      assert s[0..] == s;
      assert MatchQuotedBold(s).None? && MatchBareBold(s).None?;
      forall i | 0 <= i < |s[1..]| ensures !BoldAfterColon(s[1..][i..]) {
        assert s[1..][i..] == s[i + 1..];
      }
      UnboldIdentity(s[1..]);
    }
  }

  /** Text with no trailing comma and no `**` after a colon is returned unchanged by the cleaner. */
  lemma CleanJsonStringIdentity(s: string)
    requires NoTrailingComma(s) && NoBoldAfterColon(s)
    ensures CleanJsonString(s) == s
  {
    RemoveTrailingCommasIdentity(s);
    UnboldIdentity(s);
  }

  lemma {:induction false} SpaceRunPrefix(ws: string, t: string)
    requires forall k :: 0 <= k < |ws| ==> IsSpace(ws[k])
    requires t == [] || !IsSpace(t[0])
    ensures SpaceRun(ws + t) == |ws|
  {
    if ws != [] {
      assert (ws + t)[1..] == ws[1..] + t;
      SpaceRunPrefix(ws[1..], t);
    } else {
      assert ws + t == t;
    }
  }

  lemma {:induction false} QuoteFreeRunPrefix(v: string, t: string)
    requires forall k :: 0 <= k < |v| ==> v[k] != '"'
    requires t != [] && t[0] == '"'
    ensures QuoteFreeRun(v + t) == |v|
  {
    if v != [] {
      assert (v + t)[1..] == v[1..] + t;
      QuoteFreeRunPrefix(v[1..], t);
    } else {
      assert v + t == t;
    }
  }

  lemma {:induction false} BareRunPrefix(v: string, t: string)
    requires forall k :: 0 <= k < |v| ==> InBareValue(v[k])
    requires t == [] || !InBareValue(t[0])
    ensures BareRun(v + t) == |v|
  {
    if v != [] {
      assert (v + t)[1..] == v[1..] + t;
      BareRunPrefix(v[1..], t);
    } else {
      assert v + t == t;
    }
  }

  /** `: **"v"**` (spaces allowed after the colon, `v` without quotes) becomes `:"v"`. */
  lemma QuotedBoldRewritten(ws: string, v: string, rest: string)
    requires forall k :: 0 <= k < |ws| ==> IsSpace(ws[k])
    requires forall k :: 0 <= k < |v| ==> v[k] != '"'
    ensures UnboldQuoted(":" + ws + "**\"" + v + "\"**" + rest) == ":\"" + v + "\"" + UnboldQuoted(rest)
  {
    var s := ":" + ws + "**\"" + v + "\"**" + rest;
    QuotedBoldMatched(ws, v, rest);
    assert s[|ws| + |v| + 7..] == rest;
  }

  /** After a colon and its spaces, a `**` is where the bold rewrites look for it. */
  lemma ColonBold(ws: string, x: string)
    requires forall k :: 0 <= k < |ws| ==> IsSpace(ws[k])
    requires |x| >= 2 && x[0] == '*' && x[1] == '*'
    ensures BoldStart(":" + ws + x) == |ws| + 1
    ensures BoldAfterColon(":" + ws + x)
    ensures (":" + ws + x)[|ws| + 3..] == x[2..]
  {
    var s := ":" + ws + x;
    assert s[1..] == ws + x;
    SpaceRunPrefix(ws, x);
  }

  lemma QuotedBoldMatched(ws: string, v: string, rest: string)
    requires forall k :: 0 <= k < |ws| ==> IsSpace(ws[k])
    requires forall k :: 0 <= k < |v| ==> v[k] != '"'
    ensures MatchQuotedBold(":" + ws + "**\"" + v + "\"**" + rest) == Some(BoldMatch(|ws| + |v| + 7, v))
  {
    QuotedBoldParts(ws, v, rest);
    MatchQuotedBoldAfter(":" + ws + "**\"" + v + "\"**" + rest, |ws|, v, rest);
  }

  /** The quoted-bold match once the text after the colon and its `n` spaces is known to be `**"v"**…`. */
  lemma MatchQuotedBoldAfter(s: string, n: nat, v: string, rest: string)
    requires forall k :: 0 <= k < |v| ==> v[k] != '"'
    requires BoldAfterColon(s) && BoldStart(s) == n + 1
    requires s[n + 3..] == "\"" + (v + ("\"**" + rest))
    ensures MatchQuotedBold(s) == Some(BoldMatch(n + |v| + 7, v))
  {
    var p := n + 3;
    var w := v + ("\"**" + rest);
    assert s[p] == '"' && s[p + 1..] == w;
    QuoteFreeRunPrefix(v, "\"**" + rest);
    assert s[p + 1..p + 1 + |v|] == w[..|v|] == v;
    assert s[p + |v| + 2] == w[|v| + 1] && s[p + |v| + 3] == w[|v| + 2];
    MatchQuotedBoldAt(s, p, v);
  }

  /** Where the pieces of `: **"v"**` sit once the text is assembled. */
  lemma QuotedBoldParts(ws: string, v: string, rest: string)
    requires forall k :: 0 <= k < |ws| ==> IsSpace(ws[k])
    ensures var s := ":" + ws + "**\"" + v + "\"**" + rest;
      BoldAfterColon(s) && BoldStart(s) == |ws| + 1
      && s[|ws| + 3..] == "\"" + (v + ("\"**" + rest))
  {
    var u := "\"" + (v + ("\"**" + rest));
    var x := "**" + u;
    assert ":" + ws + "**\"" + v + "\"**" + rest == ":" + ws + x;
    ColonBold(ws, x);
    assert x[2..] == u;
  }

  /** The quoted-bold match once the text from the quote on is known to be `"v"**`. */
  lemma MatchQuotedBoldAt(s: string, p: nat, v: string)
    requires BoldAfterColon(s) && p == BoldStart(s) + 2 && p + |v| + 3 < |s|
    requires s[p] == '"' && QuoteFreeRun(s[p + 1..]) == |v| && s[p + 1..p + 1 + |v|] == v
    requires s[p + |v| + 2] == '*' && s[p + |v| + 3] == '*'
    ensures MatchQuotedBold(s) == Some(BoldMatch(p + |v| + 4, v))
  {
  }

  /**
   * `: **v**` becomes `:"v"` when `v` is non-empty, has no `,` `}` `]` or
   * `"`, and the closing `**` ends the run of such characters (the greedy
   * group otherwise reaches the last `**` of the run).
   */
  lemma BareBoldRewritten(ws: string, v: string, rest: string)
    requires forall k :: 0 <= k < |ws| ==> IsSpace(ws[k])
    requires v != [] && forall k :: 0 <= k < |v| ==> InBareValue(v[k])
    requires rest == [] || !InBareValue(rest[0])
    ensures UnboldBare(":" + ws + "**" + v + "**" + rest) == ":\"" + v + "\"" + UnboldBare(rest)
  {
    var s := ":" + ws + "**" + v + "**" + rest;
    BareBoldMatched(ws, v, rest);
    assert s[|ws| + |v| + 5..] == rest;
  }

  lemma BareBoldMatched(ws: string, v: string, rest: string)
    requires forall k :: 0 <= k < |ws| ==> IsSpace(ws[k])
    requires v != [] && forall k :: 0 <= k < |v| ==> InBareValue(v[k])
    requires rest == [] || !InBareValue(rest[0])
    ensures MatchBareBold(":" + ws + "**" + v + "**" + rest) == Some(BoldMatch(|ws| + |v| + 5, v))
  {
    BareBoldParts(ws, v, rest);
    MatchBareBoldAt(":" + ws + "**" + v + "**" + rest, v);
  }

  /** Where the pieces of `: **v**` sit once the text is assembled. */
  lemma BareBoldParts(ws: string, v: string, rest: string)
    requires forall k :: 0 <= k < |ws| ==> IsSpace(ws[k])
    requires v != [] && forall k :: 0 <= k < |v| ==> InBareValue(v[k])
    requires rest == [] || !InBareValue(rest[0])
    ensures var s := ":" + ws + "**" + v + "**" + rest;
      BoldAfterColon(s) && BoldStart(s) == |ws| + 1
      && BareRun(s[|ws| + 3..]) == |v| + 2 && s[|ws| + 3..][..|v| + 2] == v + "**"
  {
    var t := v + "**";
    var x := "**" + (t + rest);
    assert ":" + ws + "**" + v + "**" + rest == ":" + ws + x;
    ColonBold(ws, x);
    assert x[2..] == t + rest;
    BareRunPrefix(t, rest);
    assert (t + rest)[..|t|] == t;
  }

  /** The bare-bold match once the run after the colon's `**` is known to be `v**`. */
  lemma MatchBareBoldAt(s: string, v: string)
    requires BoldAfterColon(s) && v != []
    requires BoldStart(s) + 2 <= |s|
    requires BareRun(s[BoldStart(s) + 2..]) == |v| + 2
    requires s[BoldStart(s) + 2..][..|v| + 2] == v + "**"
    ensures MatchBareBold(s) == Some(BoldMatch(BoldStart(s) + |v| + 4, v))
  {
    var p := BoldStart(s) + 2;
    var t := v + "**";
    assert s[p..p + |v| + 2] == s[p..][..|v| + 2];
    LastStarPairAtEnd(v);
    assert t[..|v|] == v;
  }

  lemma LastStarPairAtEnd(v: string)
    requires v != []
    ensures LastStarPair(v + "**", |v|) == Some(|v|)
  {
    var t := v + "**";
    assert t[|v|] == '*' && t[|v| + 1] == '*';
  }

  // ---------------------------------------------------------------------
  // Properties of extraction and truncation
  // ---------------------------------------------------------------------

  /** No character of `s` is a backtick. */
  predicate NoBacktick(s: string)
  {
    forall k :: 0 <= k < |s| ==> s[k] != '`'
  }

  /** A pattern that starts with a backtick occurs nowhere in a run free of backticks. */
  lemma NoOccurrenceWithoutBacktick(s: string, pat: string, lo: nat, hi: nat)
    requires pat != [] && pat[0] == '`' && lo <= hi <= |s|
    requires NoBacktick(s[lo..hi])
    ensures forall k :: lo <= k < hi ==> !OccursAt(s, pat, k)
  {
    forall k | lo <= k < hi ensures !OccursAt(s, pat, k) {
      assert s[k] == s[lo..hi][k - lo];
      if k + |pat| <= |s| {
        assert s[k..k + |pat|][0] == s[k];
      }
    }
  }

  /** `indexOf` finds an occurrence that no earlier position (from `from` on) matches. */
  lemma IndexOfFromFinds(s: string, pat: string, from: nat, k: nat)
    requires from <= k && OccursAt(s, pat, k)
    requires forall j :: from <= j < k ==> !OccursAt(s, pat, j)
    ensures IndexOfFrom(s, pat, from) == Some(k)
  {
  }

  /** Text that holds no backtick has no fence, so neither fence strategy applies. */
  lemma NoFenceWithoutBacktick(s: string, opener: string)
    requires NoBacktick(s) && opener != [] && opener[0] == '`'
    ensures FenceContent(s, opener).None?
  {
    assert s[0..|s|] == s;
    NoOccurrenceWithoutBacktick(s, opener, 0, |s|);
  }

  /**
   * A ```` ```json ```` block wins whatever prose surrounds it: when the
   * prose before it and the block itself hold no backtick, strategy 1
   * yields the trimmed block.
   */
  lemma JsonFenceContent(prose: string, t: string, after: string)
    requires NoBacktick(prose) && NoBacktick(t)
    ensures FenceContent(prose + JsonFence + t + Fence + after, JsonFence) == Some(Trim(t))
  {
    var s := prose + JsonFence + t + Fence + after;
    FenceParts(prose, t, after);
    FenceAt(s, |prose|, |prose| + |JsonFence| + |t|, prose, t);
  }

  /** Where the pieces of prose + ```` ```json ```` + t + ```` ``` ```` + rest sit once assembled. */
  lemma FenceParts(prose: string, t: string, after: string)
    ensures var s := prose + JsonFence + t + Fence + after;
      var b := |prose| + |JsonFence|;
      var q := b + |t|;
      q + |Fence| <= |s| && s[..|prose|] == prose && s[|prose|..b] == JsonFence
      && s[b..q] == t && s[q..q + |Fence|] == Fence
  {
    var s := prose + JsonFence + t + Fence + after;
    assert s == prose + (JsonFence + (t + (Fence + after)));
  }

  /** The fence match when the first opener is at `i` and the first fence after it at `q`. */
  lemma FenceAt(s: string, i: nat, q: nat, before: string, t: string)
    requires i + |JsonFence| <= q && q + |Fence| <= |s|
    requires s[i..i + |JsonFence|] == JsonFence && s[q..q + |Fence|] == Fence
    requires s[..i] == before && s[i + |JsonFence|..q] == t
    requires NoBacktick(before) && NoBacktick(t)
    ensures FenceContent(s, JsonFence) == Some(Trim(t))
  {
    assert s[0..i] == s[..i];
    NoOccurrenceWithoutBacktick(s, JsonFence, 0, i);
    IndexOfFromFinds(s, JsonFence, 0, i);
    NoOccurrenceWithoutBacktick(s, Fence, i + |JsonFence|, q);
    IndexOfFromFinds(s, Fence, i + |JsonFence|, q);
  }

  /** The surrounding prose does not change the parsed result of a fenced JSON block. */
  lemma FencedJsonWins(parse: string -> Option<Json>, prose: string, t: string, after: string)
    requires NoBacktick(prose) && NoBacktick(t)
    requires Attempt(parse, Some(Trim(t))).Some?
    ensures ExtractAndParse(parse, prose + JsonFence + t + Fence + after) == Attempt(parse, Some(Trim(t)))
  {
    JsonFenceContent(prose, t, after);
  }

  /**
   * A bare array holding one object, `[{...}]`, is not parsed as the array:
   * strategy 3 slices from the first `{` to the last `}` and returns the
   * inner object whenever that parses.
   */
  lemma BareArrayUnwrapped(parse: string -> Option<Json>, t: string)
    requires NoBacktick(t) && |t| >= 2 && t[0] == '{' && t[|t| - 1] == '}'
    requires Attempt(parse, Some(t)).Some?
    ensures ExtractAndParse(parse, "[" + t + "]") == Attempt(parse, Some(t))
  {
    var s := "[" + t + "]";
    assert NoBacktick(s) by {
      forall k | 0 <= k < |s| ensures s[k] != '`' {
        if 0 < k < |s| - 1 { assert s[k] == t[k - 1]; }
      }
    }
    NoFenceWithoutBacktick(s, JsonFence);
    NoFenceWithoutBacktick(s, Fence);
    assert s[1] == '{' && s[|t|] == '}';
    assert s[1..|t| + 1] == t;
  }

  /** The aggressive clean-up leaves text without `*` and backticks unchanged. */
  lemma {:induction false} StripMarkdownIdentity(s: string)
    requires forall k :: 0 <= k < |s| ==> s[k] != '*' && s[k] != '`'
    ensures StripMarkdown(s) == s
  {
    if s != [] {
      StripMarkdownIdentity(s[1..]);
      assert s == [s[0]] + s[1..];
    }
  }

  /** Stripping twice is stripping once. */
  lemma StripMarkdownIdempotent(s: string)
    ensures StripMarkdown(StripMarkdown(s)) == StripMarkdown(s)
  {
    StripMarkdownIdentity(StripMarkdown(s));
  }

  /** Cutting `c + t` at the code-unit length of `c` gives `c` back. */
  lemma {:induction false} UnitPrefixOfPrefix(c: string, t: string)
    ensures UnitPrefix(c + t, UnitLength(c)) == c
  {
    if c == [] {
      assert c + t == t;
    } else {
      var s := c + t;
      assert s[0] == c[0] && s[1..] == c[1..] + t;
      assert UnitLength(c) == UnitCount(c[0]) + UnitLength(c[1..]);
      UnitPrefixOfPrefix(c[1..], t);
      assert UnitPrefix(s, UnitLength(c)) == [c[0]] + UnitPrefix(s[1..], UnitLength(c[1..]));
      assert c == [c[0]] + c[1..];
    }
  }

  /** Truncating a truncated value changes nothing. */
  lemma TruncateIdempotent(v: Option<Json>)
    requires Truncate(v).Some?
    ensures Truncate(Truncate(v)) == Truncate(v)
  {
    if IsSet(v) && v.value.JString? && UnitLength(v.value.s) > TruncateLength {
      var c := CutUnits(v.value.s, TruncateLength);
      UnitLengthAppend(c, "...");
      UnitPrefixOfPrefix(c, "...");
    }
  }

  /**
   * A string of at most 200 code units comes back unchanged; a longer one
   * comes back as its first 200 code units followed by `...`, 203 units in
   * all.
   */
  lemma TruncateString(s: string)
    ensures Truncate(Some(JString(s))).Some? && Truncate(Some(JString(s))).value.JString?
    ensures var r := Truncate(Some(JString(s))).value.s;
      (UnitLength(s) <= TruncateLength ==> r == s)
      && (UnitLength(s) > TruncateLength ==> (r == CutUnits(s, TruncateLength) + "..."
        && UnitLength(r) == TruncateLength + 3))
  {
    if UnitLength(s) > TruncateLength {
      UnitLengthAppend(CutUnits(s, TruncateLength), "...");
    }
  }
}

=== FILE: prompts.dfy ===
/**
 * The prompt catalogue: per-language default prompts, overridden key by
 * key by a catalogue saved in `localStorage`, with `{name}` placeholders
 * filled in on lookup.
 */
module Prompts {
  import opened Wrappers
  import opened Json
  import opened LocalStorage

  const ZhStorageKey: string := "ideaverse_prompts_zh_v3"
  const EnStorageKey: string := "ideaverse_prompts_en_v3"
  const EnglishLocale: string := "en-US"

  /** The two built-in catalogues, each mapping a prompt key to a `{id, name, description, content}` object. */
  datatype Defaults = Defaults(zh: Obj, en: Obj)

  /** `getStorageKey`: `en-US` selects the English key, every other language the Chinese one. */
  function GetStorageKey(lang: string): (k: string)
    ensures k == EnStorageKey <==> lang == EnglishLocale
    ensures k == ZhStorageKey <==> lang != EnglishLocale
  {
    if lang == EnglishLocale then EnStorageKey else ZhStorageKey
  }

  /** The built-in catalogue for a language, chosen by the same test as the storage key. */
  function DefaultsFor(defaults: Defaults, lang: string): Obj
  {
    if lang == EnglishLocale then defaults.en else defaults.zh
  }

  /**
   * `getPrompts`: the stored catalogue spread over the defaults. Nothing
   * stored, the empty text, or text `JSON.parse` rejects gives a copy of
   * the defaults.
   */
  function GetPrompts(items: map<string, Stored>, defaults: Defaults, lang: string): (r: Obj)
    ensures var key := GetStorageKey(lang);
      key !in items || items[key].Text? ==> r == DefaultsFor(defaults, lang)
    ensures var key := GetStorageKey(lang);
      key in items && items[key].Document? ==>
        forall k :: (k in r <==> k in DefaultsFor(defaults, lang) || k in Spread(items[key].value))
          && (k in Spread(items[key].value) ==> r[k] == Spread(items[key].value)[k])
          && (k !in Spread(items[key].value) && k in DefaultsFor(defaults, lang) ==> r[k] == DefaultsFor(defaults, lang)[k])
  {
    var key := GetStorageKey(lang);
    if key in items && items[key].Document? then DefaultsFor(defaults, lang) + Spread(items[key].value)
    else DefaultsFor(defaults, lang)
  }

  /** `prompts[key]?.content || ''` for a string-valued content. */
  function ContentOf(prompts: Obj, key: string): (r: string)
    ensures key !in prompts ==> r == ""
  {
    if key in prompts then
      match Get(prompts[key], "content")
      case Some(JString(s)) => s
      case _ => ""
    else ""
  }

  /**
   * A variable name whose `{name}` pattern is a literal for the regular
   * expression engine: a letter or `_` followed by letters, digits or `_`.
   */
  predicate PlaceholderName(k: string)
  {
    k != []
    && ('a' <= k[0] <= 'z' || 'A' <= k[0] <= 'Z' || k[0] == '_')
    && forall i :: 0 <= i < |k| ==> ('a' <= k[i] <= 'z' || 'A' <= k[i] <= 'Z' || '0' <= k[i] <= '9' || k[i] == '_')
  }

  /** The text `{k}` that `getPrompt` looks for. */
  function Placeholder(k: string): string
  {
    "{" + k + "}"
  }

  /**
   * A global regular-expression replacement of a literal pattern: scan from
   * the left, replace each match and resume after it.
   */
  function ReplaceAll(s: string, pat: string, v: string): string
    requires pat != []
    decreases |s|
  {
    if s == [] then []
    else if OccursAt(s, pat, 0) then v + ReplaceAll(s[|pat|..], pat, v)
    else [s[0]] + ReplaceAll(s[1..], pat, v)
  }

  /** A text in which the pattern never occurs is returned as it is. */
  lemma {:induction false} ReplaceAllAbsent(s: string, pat: string, v: string)
    requires pat != []
    requires forall k :: !OccursAt(s, pat, k)
    ensures ReplaceAll(s, pat, v) == s
    decreases |s|
  {
    if s != [] {
      forall k | OccursAt(s[1..], pat, k) ensures OccursAt(s, pat, k + 1) {
        assert s[1..][k..k + |pat|] == s[k + 1..k + 1 + |pat|];
      }
      ReplaceAllAbsent(s[1..], pat, v);
    }
  }

  /**
   * Replacement proceeds occurrence by occurrence: the text before the
   * first occurrence is kept, the occurrence becomes `v`, and scanning
   * resumes after it.
   */
  lemma {:induction false} ReplaceAllFirst(a: string, pat: string, v: string, b: string)
    requires pat != []
    requires forall k :: 0 <= k < |a| ==> !OccursAt(a + pat + b, pat, k)
    ensures ReplaceAll(a + pat + b, pat, v) == a + v + ReplaceAll(b, pat, v)
    decreases |a|
  {
    var s := a + pat + b;
    if a == [] {
      assert s == pat + b;
      assert s[..|pat|] == pat;
      assert s[|pat|..] == b;
    } else {
      assert !OccursAt(s, pat, 0);
      assert s[1..] == a[1..] + pat + b;
      forall k | 0 <= k < |a[1..]| ensures !OccursAt(a[1..] + pat + b, pat, k) {
        if OccursAt(a[1..] + pat + b, pat, k) {
          assert s[k + 1..k + 1 + |pat|] == (a[1..] + pat + b)[k..k + |pat|];
          assert OccursAt(s, pat, k + 1);
        }
      }
      ReplaceAllFirst(a[1..], pat, v, b);
      assert a == [a[0]] + a[1..];
    }
  }

  /** Replacing a pattern by itself changes nothing. */
  lemma {:induction false} ReplaceAllSelf(s: string, pat: string)
    requires pat != []
    ensures ReplaceAll(s, pat, pat) == s
    decreases |s|
  {
    if s != [] {
      if OccursAt(s, pat, 0) {
        ReplaceAllSelf(s[|pat|..], pat);
        assert s == s[..|pat|] + s[|pat|..];
      } else {
        ReplaceAllSelf(s[1..], pat);
        assert s == [s[0]] + s[1..];
      }
    }
  }

  /** Every variable, in entry order, replaced everywhere in `content`. */
  function SubstituteAll(content: string, vars: seq<(string, string)>): string
    decreases |vars|
  {
    if vars == [] then content
    else
      var (k, v) := vars[|vars| - 1];
      ReplaceAll(SubstituteAll(content, vars[..|vars| - 1]), Placeholder(k), v)
  }

  /** Substituting into the empty text gives the empty text. */
  lemma {:induction false} SubstituteAllEmpty(vars: seq<(string, string)>)
    ensures SubstituteAll("", vars) == ""
    decreases |vars|
  {
    if vars != [] {
      SubstituteAllEmpty(vars[..|vars| - 1]);
    }
  }

  /** No placeholder of any variable in the text: substitution changes nothing. */
  lemma {:induction false} SubstituteAllAbsent(content: string, vars: seq<(string, string)>)
    requires forall i, k :: 0 <= i < |vars| ==> !OccursAt(content, Placeholder(vars[i].0), k)
    ensures SubstituteAll(content, vars) == content
    decreases |vars|
  {
    if vars != [] {
      var (k, v) := vars[|vars| - 1];
      SubstituteAllAbsent(content, vars[..|vars| - 1]);
      ReplaceAllAbsent(content, Placeholder(k), v);
    }
  }

  /**
   * `getPrompt`: looks the key up in the merged catalogue and replaces
   * `{k}` by `v` for each variable in turn. Variable names are plain
   * identifiers and values hold no `$`, so the pattern is a literal and
   * the replacement is inserted as it is.
   */
  method GetPrompt(ls: LocalStore, defaults: Defaults, key: string, variables: seq<(string, string)>, lang: string)
    returns (content: string)
    requires forall i :: 0 <= i < |variables| ==> PlaceholderName(variables[i].0) && '$' !in variables[i].1
    ensures content == SubstituteAll(ContentOf(GetPrompts(ls.items, defaults, lang), key), variables)
  {
    var prompts := GetPrompts(ls.items, defaults, lang);
    content := ContentOf(prompts, key);
    ghost var original := content;
    var i := 0;
    while i < |variables|
      invariant 0 <= i <= |variables|
      invariant content == SubstituteAll(original, variables[..i])
    {
      var (k, v) := variables[i];
      content := ReplaceAll(content, Placeholder(k), v);
      assert variables[..i + 1][..i] == variables[..i];
      i := i + 1;
    }
    assert variables[..|variables|] == variables;
  }

  /** A key in neither the defaults nor the stored catalogue gives the empty prompt. */
  lemma UnknownPromptIsEmpty(items: map<string, Stored>, defaults: Defaults, key: string, variables: seq<(string, string)>, lang: string)
    requires key !in DefaultsFor(defaults, lang)
    requires GetStorageKey(lang) in items && items[GetStorageKey(lang)].Document? ==>
      key !in Spread(items[GetStorageKey(lang)].value)
    ensures SubstituteAll(ContentOf(GetPrompts(items, defaults, lang), key), variables) == ""
  {
    SubstituteAllEmpty(variables);
  }

  /** `savePrompts`: the catalogue is stored under the language's key. */
  method SavePrompts(ls: LocalStore, prompts: Obj, lang: string)
    modifies ls
    ensures ls.items == old(ls.items)[GetStorageKey(lang) := Document(JObject(prompts))]
  {
    ls.items := ls.items[GetStorageKey(lang) := Document(JObject(prompts))];
  }

  /** A saved catalogue reads back spread over the defaults: saved keys win, the rest keep their default. */
  lemma SavedPromptsRead(items: map<string, Stored>, defaults: Defaults, prompts: Obj, lang: string)
    ensures var r := GetPrompts(items[GetStorageKey(lang) := Document(JObject(prompts))], defaults, lang);
      (forall k :: k in prompts ==> k in r && r[k] == prompts[k])
      && (forall k :: k !in prompts && k in DefaultsFor(defaults, lang) ==> k in r && r[k] == DefaultsFor(defaults, lang)[k])
      && (forall k :: k in r ==> k in prompts || k in DefaultsFor(defaults, lang))
  {
  }

  /** Saving one language's catalogue leaves the other language's reading unchanged. */
  lemma SaveKeepsOtherLanguage(items: map<string, Stored>, defaults: Defaults, prompts: Obj, lang: string, other: string)
    requires (lang == EnglishLocale) != (other == EnglishLocale)
    ensures GetPrompts(items[GetStorageKey(lang) := Document(JObject(prompts))], defaults, other)
      == GetPrompts(items, defaults, other)
  {
  }

  /** `resetPrompts`: drops the stored catalogue and returns a copy of the defaults. */
  method ResetPrompts(ls: LocalStore, defaults: Defaults, lang: string) returns (r: Obj)
    modifies ls
    ensures ls.items == old(ls.items) - {GetStorageKey(lang)}
    ensures r == DefaultsFor(defaults, lang)
    ensures GetPrompts(ls.items, defaults, lang) == r
  {
    ls.items := ls.items - {GetStorageKey(lang)};
    r := DefaultsFor(defaults, lang);
  }

  /**
   * `resetPrompt`: a key with a truthy default gets a copy of that default
   * and the whole catalogue is saved; any other key saves nothing. The
   * merged catalogue is returned either way.
   */
  method ResetPrompt(ls: LocalStore, defaults: Defaults, key: string, lang: string) returns (r: Obj)
    modifies ls
    ensures var d := DefaultsFor(defaults, lang);
      var before := GetPrompts(old(ls.items), defaults, lang);
      if key in d && Truthy(d[key]) then
        r == before[key := JObject(Spread(d[key]))]
        && ls.items == old(ls.items)[GetStorageKey(lang) := Document(JObject(r))]
      else
        r == before && ls.items == old(ls.items)
  {
    var prompts := GetPrompts(ls.items, defaults, lang);
    var d := DefaultsFor(defaults, lang);
    if key in d && Truthy(d[key]) {
      prompts := prompts[key := JObject(Spread(d[key]))];
      SavePrompts(ls, prompts, lang);
    }
    r := prompts;
  }

  /**
   * After a single-key reset the catalogue reads back with that key at its
   * default and every other key as it was.
   */
  lemma ResetPromptRestores(items: map<string, Stored>, defaults: Defaults, key: string, lang: string)
    requires key in DefaultsFor(defaults, lang) && DefaultsFor(defaults, lang)[key].JObject?
    ensures var before := GetPrompts(items, defaults, lang);
      var saved := before[key := JObject(Spread(DefaultsFor(defaults, lang)[key]))];
      var after := GetPrompts(items[GetStorageKey(lang) := Document(JObject(saved))], defaults, lang);
      after[key] == DefaultsFor(defaults, lang)[key]
      && (forall k :: k != key ==> (k in after <==> k in before) && (k in before ==> after[k] == before[k]))
  {
    var d := DefaultsFor(defaults, lang);
    var before := GetPrompts(items, defaults, lang);
    var saved := before[key := JObject(Spread(d[key]))];
    SavedPromptsRead(items, defaults, saved, lang);
    assert forall k :: k in d ==> k in before;
  }
}

=== FILE: session_storage.dfy ===
/**
 * The browser's `localStorage`, seen through the client's own reads: each
 * key holds what the client last wrote under it.
 */
module LocalStorage {
  import opened Json

  /** What a key holds, as `JSON.parse` (or a raw `getItem`) gives it back. */
  datatype Stored =
    | Records(records: seq<Obj>)  // the JSON text of a list of objects
    | Document(value: Json)       // the JSON text of any other value
    | Text(text: string)          // raw text that is not JSON, such as a session id

  /** The key/value store; every write replaces or removes one key. */
  class LocalStore {
    var items: map<string, Stored>

    constructor ()
      ensures items == map[]
    {
      items := map[];
    }
  }
}

/**
 * The session repository: an ordered list of session records under one
 * key, a pointer to the current session under another, and the settings.
 */
module SessionStorage {
  import opened Wrappers
  import opened Json
  import opened LocalStorage

  const SessionsKey: string := "ideaverse_sessions"
  const CurrentSessionKey: string := "ideaverse_current_session"
  const SettingsKey: string := "ideaverse_settings"

  /** The shape this module keeps its keys in: a record list, and the current id as raw text. */
  predicate WellFormed(items: map<string, Stored>)
  {
    (SessionsKey in items ==> items[SessionsKey].Records?)
    && (CurrentSessionKey in items ==> items[CurrentSessionKey].Text?)
  }

  /** `s.id` of a record; `None` is `undefined`. */
  function IdOf(s: Obj): Option<Json>
  {
    if "id" in s then Some(s["id"]) else None
  }

  /** `getSessions`: the stored list, or `[]` when nothing is stored. */
  function GetSessions(items: map<string, Stored>): seq<Obj>
    requires WellFormed(items)
  {
    if SessionsKey in items then items[SessionsKey].records else []
  }

  /** `findIndex(s => s.id === id)`, with `None` for -1. */
  function FindSession(xs: seq<Obj>, id: Option<Json>): (r: Option<nat>)
    ensures r.Some? ==> (r.value < |xs| && IdOf(xs[r.value]) == id
      && forall j :: 0 <= j < r.value ==> IdOf(xs[j]) != id)
    ensures r.None? ==> forall j :: 0 <= j < |xs| ==> IdOf(xs[j]) != id
  {
    if xs == [] then None
    else if IdOf(xs[0]) == id then Some(0)
    else
      var r := FindSession(xs[1..], id);
      if r.Some? then Some(r.value + 1) else None
  }

  /** `getSession`: the first stored record whose id is `id`, or null. */
  function GetSession(items: map<string, Stored>, id: Option<Json>): (r: Option<Obj>)
    requires WellFormed(items)
    ensures r.Some? <==> exists j :: 0 <= j < |GetSessions(items)| && IdOf(GetSessions(items)[j]) == id
    ensures r.Some? ==> exists j :: (0 <= j < |GetSessions(items)| && r.value == GetSessions(items)[j]
      && IdOf(r.value) == id
      && forall k :: 0 <= k < j ==> IdOf(GetSessions(items)[k]) != id)
  {
    var i := FindSession(GetSessions(items), id);
    if i.Some? then Some(GetSessions(items)[i.value]) else None
  }

  /** The record `createSession` builds: step 1, in progress, empty lists and null results. */
  function NewSession(problem: string, id: string, now: string): Obj
  {
    map[
      "id" := JString(id),
      "problem" := JString(problem),
      "createdAt" := JString(now),
      "updatedAt" := JString(now),
      "currentStep" := JNumber(1.0),
      "status" := JString("in_progress"),
      "interviewQuestions" := JNull,
      "interviewAnswers" := JArray([]),
      "understandingReport" := JNull,
      "analysisCards" := JArray([]),
      "deepAnalysisReport" := JNull,
      "solutions" := JArray([]),
      "recommendation" := JNull,
      "mindMap" := JNull]
  }

  /** The key/value map after `setCurrentSessionId(id)`: a truthy id is stored, anything else removes the key. */
  function WithCurrentId(items: map<string, Stored>, id: Option<string>): map<string, Stored>
  {
    if id.Some? && id.value != "" then items[CurrentSessionKey := Text(id.value)]
    else items - {CurrentSessionKey}
  }

  /** `getCurrentSessionId`: the stored id text, or null. */
  function GetCurrentSessionId(items: map<string, Stored>): Option<string>
    requires WellFormed(items)
  {
    if CurrentSessionKey in items then Some(items[CurrentSessionKey].text) else None
  }

  /** `getCurrentSession`: null without a (truthy) pointer, else the record it names, or null if it dangles. */
  function GetCurrentSession(items: map<string, Stored>): (r: Option<Obj>)
    requires WellFormed(items)
    ensures GetCurrentSessionId(items).None? ==> r.None?
    ensures GetCurrentSessionId(items) == Some("") ==> r.None?
    ensures GetCurrentSessionId(items).Some? && GetCurrentSessionId(items).value != "" ==>
      r == GetSession(items, Some(JString(GetCurrentSessionId(items).value)))
  {
    var id := GetCurrentSessionId(items);
    if id.Some? && id.value != "" then GetSession(items, Some(JString(id.value))) else None
  }

  /** A truthy id set as the pointer is read back; a falsy one leaves no pointer. */
  lemma CurrentIdRoundTrip(items: map<string, Stored>, id: Option<string>)
    requires WellFormed(items)
    ensures WellFormed(WithCurrentId(items, id))
    ensures GetCurrentSessionId(WithCurrentId(items, id)) == (if id.Some? && id.value != "" then id else None)
    ensures GetSessions(WithCurrentId(items, id)) == GetSessions(items)
  {
  }

  /** `setCurrentSessionId`. */
  method SetCurrentSessionId(ls: LocalStore, id: Option<string>)
    modifies ls
    ensures ls.items == WithCurrentId(old(ls.items), id)
  {
    if id.Some? && id.value != "" {
      ls.items := ls.items[CurrentSessionKey := Text(id.value)];
    } else {
      ls.items := ls.items - {CurrentSessionKey};
    }
  }

  /**
   * `createSession`: builds the record (the id and the time are inputs),
   * puts it in front of the stored list and makes it current.
   */
  method CreateSession(ls: LocalStore, problem: string, id: string, now: string) returns (session: Obj)
    requires WellFormed(ls.items)
    modifies ls
    ensures session == NewSession(problem, id, now)
    ensures ls.items == WithCurrentId(old(ls.items)[SessionsKey := Records([session] + GetSessions(old(ls.items)))], Some(id))
    ensures WellFormed(ls.items)
    ensures GetSessions(ls.items) == [session] + GetSessions(old(ls.items))
  {
    session := NewSession(problem, id, now);
    var sessions := GetSessions(ls.items);
    ls.items := ls.items[SessionsKey := Records([session] + sessions)];
    SetCurrentSessionId(ls, Some(id));
  }

  /** A new session is found by its id, and is the current session when its id is truthy. */
  lemma CreatedSessionIsFound(items: map<string, Stored>, problem: string, id: string, now: string)
    requires WellFormed(items)
    ensures var after := WithCurrentId(items[SessionsKey := Records([NewSession(problem, id, now)] + GetSessions(items))], Some(id));
      WellFormed(after)
      && GetSession(after, Some(JString(id))) == Some(NewSession(problem, id, now))
      && (id != "" ==> GetCurrentSession(after) == Some(NewSession(problem, id, now)))
      && (id == "" ==> GetCurrentSession(after).None?)
  {
  }

  /** The record `updateSession` stores: the old fields, overwritten by the updates, then a fresh `updatedAt`. */
  function UpdatedRecord(s: Obj, updates: Patch, now: string): Obj
  {
    Assign(s, updates)["updatedAt" := JString(now)]
  }

  /** `updatedAt` always comes from the repository; every other field is the update's, else the old one. */
  lemma UpdatedRecordFields(s: Obj, updates: Patch, now: string)
    ensures UpdatedRecord(s, updates, now)["updatedAt"] == JString(now)
    ensures forall k :: k != "updatedAt" && k in updates && updates[k].Some? ==>
      k in UpdatedRecord(s, updates, now) && UpdatedRecord(s, updates, now)[k] == updates[k].value
    ensures forall k :: k != "updatedAt" && k in updates && updates[k].None? ==> k !in UpdatedRecord(s, updates, now)
    ensures forall k :: k != "updatedAt" && k !in updates ==>
      (k in UpdatedRecord(s, updates, now) <==> k in s)
      && (k in s ==> UpdatedRecord(s, updates, now)[k] == s[k])
  {
  }

  /** The session `updateSession` returns: the merged record, or null for an unknown id. */
  function UpdatedSession(items: map<string, Stored>, id: Option<Json>, updates: Patch, now: string): Option<Obj>
    requires WellFormed(items)
  {
    var i := FindSession(GetSessions(items), id);
    if i.Some? then Some(UpdatedRecord(GetSessions(items)[i.value], updates, now)) else None
  }

  /** The key/value map after `updateSession`: the merged record written back in place. */
  function UpdatedItems(items: map<string, Stored>, id: Option<Json>, updates: Patch, now: string): (r: map<string, Stored>)
    requires WellFormed(items)
    ensures WellFormed(r)
  {
    var i := FindSession(GetSessions(items), id);
    if i.Some? then
      items[SessionsKey := Records(GetSessions(items)[i.value := UpdatedRecord(GetSessions(items)[i.value], updates, now)])]
    else items
  }

  /** `updateSession`. */
  method UpdateSession(ls: LocalStore, id: Option<Json>, updates: Patch, now: string) returns (r: Option<Obj>)
    requires WellFormed(ls.items)
    modifies ls
    ensures r == UpdatedSession(old(ls.items), id, updates, now)
    ensures ls.items == UpdatedItems(old(ls.items), id, updates, now)
  {
    var sessions := GetSessions(ls.items);
    var index := FindSession(sessions, id);
    if index.Some? {
      var i := index.value;
      sessions := sessions[i := UpdatedRecord(sessions[i], updates, now)];
      ls.items := ls.items[SessionsKey := Records(sessions)];
      r := Some(sessions[i]);
    } else {
      r := None;
    }
  }

  /** The record `updateSession` returns is the one it stored. */
  lemma UpdatedSessionStored(items: map<string, Stored>, id: Option<Json>, updates: Patch, now: string)
    requires WellFormed(items)
    ensures UpdatedSession(items, id, updates, now).Some? ==>
      UpdatedSession(items, id, updates, now).value in GetSessions(UpdatedItems(items, id, updates, now))
  {
    var i := FindSession(GetSessions(items), id);
    if i.Some? {
      assert GetSessions(UpdatedItems(items, id, updates, now))[i.value] == UpdatedSession(items, id, updates, now).value;
    }
  }

  /** Updating a stored id with updates that leave `id` alone finds the record and keeps its id. */
  lemma UpdateKeepsId(items: map<string, Stored>, s: Obj, updates: Patch, now: string)
    requires WellFormed(items) && s in GetSessions(items) && "id" !in updates
    ensures UpdatedSession(items, IdOf(s), updates, now).Some?
    ensures IdOf(UpdatedSession(items, IdOf(s), updates, now).value) == IdOf(s)
  {
    var i := FindSession(GetSessions(items), IdOf(s));
    assert i.Some?;
    UpdatedRecordFields(GetSessions(items)[i.value], updates, now);
  }

  /**
   * An unknown id returns null and writes nothing. A known id changes only
   * the first record with that id, which is also what is returned, and
   * leaves every other key alone.
   */
  lemma UpdateSessionEffect(items: map<string, Stored>, id: Option<Json>, updates: Patch, now: string)
    requires WellFormed(items)
    ensures !(exists j :: 0 <= j < |GetSessions(items)| && IdOf(GetSessions(items)[j]) == id) ==>
      UpdatedSession(items, id, updates, now).None? && UpdatedItems(items, id, updates, now) == items
    ensures (exists j :: 0 <= j < |GetSessions(items)| && IdOf(GetSessions(items)[j]) == id) ==>
      var before := GetSessions(items);
      var after := GetSessions(UpdatedItems(items, id, updates, now));
      exists i :: (0 <= i < |before| && IdOf(before[i]) == id
        && (forall j :: 0 <= j < i ==> IdOf(before[j]) != id)
        && |after| == |before|
        && after[i] == UpdatedRecord(before[i], updates, now)
        && UpdatedSession(items, id, updates, now) == Some(after[i])
        && forall j :: 0 <= j < |before| && j != i ==> after[j] == before[j])
    ensures forall k :: k != SessionsKey ==>
      (k in UpdatedItems(items, id, updates, now) <==> k in items)
      && (k in items ==> UpdatedItems(items, id, updates, now)[k] == items[k])
  {
    var i := FindSession(GetSessions(items), id);
    if i.Some? {
      var after := GetSessions(UpdatedItems(items, id, updates, now));
      assert after[i.value] == UpdatedRecord(GetSessions(items)[i.value], updates, now);
    }
  }

  /**
   * After an update that leaves the id alone, looking the id up gives the
   * updated record, and every other position of the list is unchanged.
   */
  lemma UpdatedSessionIsFound(xs: seq<Obj>, id: Option<Json>, updates: Patch, now: string)
    requires FindSession(xs, id).Some?
    requires "id" !in updates
    ensures var i := FindSession(xs, id).value;
      var ys := xs[i := UpdatedRecord(xs[i], updates, now)];
      |ys| == |xs|
      && FindSession(ys, id) == Some(i)
      && (forall j :: 0 <= j < |xs| && j != i ==> ys[j] == xs[j])
  {
    var i := FindSession(xs, id).value;
    var ys := xs[i := UpdatedRecord(xs[i], updates, now)];
    UpdatedRecordFields(xs[i], updates, now);
    assert IdOf(ys[i]) == id;
    FindSessionFirst(ys, id, i);
  }

  /** A position holding the id, with no earlier one, is what `findIndex` returns. */
  lemma {:induction false} FindSessionFirst(xs: seq<Obj>, id: Option<Json>, i: nat)
    requires i < |xs| && IdOf(xs[i]) == id
    requires forall j :: 0 <= j < i ==> IdOf(xs[j]) != id
    ensures FindSession(xs, id) == Some(i)
  {
    if i > 0 {
      FindSessionFirst(xs[1..], id, i - 1);
    }
  }

  /** `sessions.filter(s => s.id !== id)`. */
  function RemoveId(xs: seq<Obj>, id: Option<Json>): (r: seq<Obj>)
    ensures |r| <= |xs|
    ensures forall s :: s in r ==> s in xs && IdOf(s) != id
  {
    if xs == [] then []
    else if IdOf(xs[0]) != id then [xs[0]] + RemoveId(xs[1..], id)
    else RemoveId(xs[1..], id)
  }

  /** Filtering keeps every record without the id: nothing else is dropped. */
  lemma {:induction false} RemoveIdKeeps(xs: seq<Obj>, id: Option<Json>)
    ensures forall s :: s in xs && IdOf(s) != id ==> s in RemoveId(xs, id)
  {
    if xs != [] {
      RemoveIdKeeps(xs[1..], id);
      forall s | s in xs && IdOf(s) != id ensures s in RemoveId(xs, id) {
        if s != xs[0] {
          assert s in xs[1..];
        }
      }
    }
  }

  /** Filtering works piecewise, so the kept records stay in their order. */
  lemma {:induction false} RemoveIdAppend(a: seq<Obj>, b: seq<Obj>, id: Option<Json>)
    ensures RemoveId(a + b, id) == RemoveId(a, id) + RemoveId(b, id)
  {
    if a == [] {
      assert a + b == b;
    } else {
      assert (a + b)[1..] == a[1..] + b;
      RemoveIdAppend(a[1..], b, id);
    }
  }

  /** A list without the id is left as it is. */
  lemma {:induction false} RemoveIdAbsent(xs: seq<Obj>, id: Option<Json>)
    requires forall j :: 0 <= j < |xs| ==> IdOf(xs[j]) != id
    ensures RemoveId(xs, id) == xs
  {
    if xs != [] {
      RemoveIdAbsent(xs[1..], id);
    }
  }

  /** The list `deleteSession` writes; the pointer is cleared only when it named the deleted id. */
  function AfterDelete(items: map<string, Stored>, id: Option<Json>): map<string, Stored>
    requires WellFormed(items)
  {
    var written := items[SessionsKey := Records(RemoveId(GetSessions(items), id))];
    var pointer := GetCurrentSessionId(items);
    if pointer.Some? && id == Some(JString(pointer.value)) then WithCurrentId(written, None) else written
  }

  /** `deleteSession`. */
  method DeleteSession(ls: LocalStore, id: Option<Json>)
    requires WellFormed(ls.items)
    modifies ls
    ensures ls.items == AfterDelete(old(ls.items), id)
    ensures WellFormed(ls.items)
  {
    var filtered := RemoveId(GetSessions(ls.items), id);
    var pointer := GetCurrentSessionId(ls.items);
    ls.items := ls.items[SessionsKey := Records(filtered)];
    if pointer.Some? && id == Some(JString(pointer.value)) {
      SetCurrentSessionId(ls, None);
    }
  }

  /**
   * After a delete the id is gone, every other record survives, and the
   * pointer is removed exactly when it named the id; other keys are kept.
   */
  lemma DeleteSessionEffect(items: map<string, Stored>, id: Option<Json>)
    requires WellFormed(items)
    ensures WellFormed(AfterDelete(items, id))
    ensures GetSession(AfterDelete(items, id), id).None?
    ensures forall s :: s in GetSessions(AfterDelete(items, id)) <==> s in GetSessions(items) && IdOf(s) != id
    ensures var p := GetCurrentSessionId(items);
      GetCurrentSessionId(AfterDelete(items, id)) == (if p.Some? && id == Some(JString(p.value)) then None else p)
    ensures forall k :: k != SessionsKey && k != CurrentSessionKey ==>
      (k in AfterDelete(items, id) <==> k in items)
      && (k in items ==> AfterDelete(items, id)[k] == items[k])
  {
    RemoveIdKeeps(GetSessions(items), id);
  }

  const DefaultSettings: Obj := map["theme" := JString("dark"), "autoSave" := JBool(true)]

  /**
   * `getSettings`: the stored value, or the defaults when nothing (or the
   * empty text) is stored; `None` is the throw of `JSON.parse` on raw text.
   */
  function GetSettings(items: map<string, Stored>): (r: Option<Json>)
    ensures SettingsKey !in items ==> r == Some(JObject(DefaultSettings))
    ensures SettingsKey in items && items[SettingsKey].Document? ==> r == Some(items[SettingsKey].value)
    ensures SettingsKey in items && items[SettingsKey].Text? ==>
      (r.None? <==> items[SettingsKey].text != "") && (r.Some? ==> r == Some(JObject(DefaultSettings)))
  {
    if SettingsKey !in items then Some(JObject(DefaultSettings))
    else match items[SettingsKey]
      case Document(v) => Some(v)
      case Records(xs) => Some(JArray(seq(|xs|, i requires 0 <= i < |xs| => JObject(xs[i]))))
      case Text(t) => if t == "" then Some(JObject(DefaultSettings)) else None
  }

  /**
   * `updateSettings`: merges the updates over the current settings, stores
   * and returns the result; an update whose value is `undefined` drops
   * that field, as `JSON.stringify` does.
   */
  method UpdateSettings(ls: LocalStore, updates: Patch) returns (r: Option<Obj>)
    modifies ls
    ensures GetSettings(old(ls.items)).None? ==> r.None? && ls.items == old(ls.items)
    ensures GetSettings(old(ls.items)).Some? ==>
      r == Some(Assign(Spread(GetSettings(old(ls.items)).value), updates))
      && ls.items == old(ls.items)[SettingsKey := Document(JObject(r.value))]
  {
    var settings := GetSettings(ls.items);
    if settings.None? {
      return None;
    }
    var merged := Assign(Spread(settings.value), updates);
    ls.items := ls.items[SettingsKey := Document(JObject(merged))];
    r := Some(merged);
  }

  /**
   * The merged settings read back: each defined update has its new value,
   * an `undefined` one is gone, and every other field keeps the stored one
   * (the default when nothing was stored).
   */
  lemma SettingsRoundTrip(items: map<string, Stored>, updates: Patch)
    requires GetSettings(items).Some? && GetSettings(items).value.JObject?
    ensures var after := items[SettingsKey := Document(JObject(Assign(Spread(GetSettings(items).value), updates)))];
      var read := GetSettings(after);
      read.Some? && read.value.JObject?
      && (forall k :: k in updates && updates[k].Some? ==> k in read.value.fields && read.value.fields[k] == updates[k].value)
      && (forall k :: k in updates && updates[k].None? ==> k !in read.value.fields)
      && (forall k :: k !in updates && k in GetSettings(items).value.fields ==>
        k in read.value.fields && read.value.fields[k] == GetSettings(items).value.fields[k])
      && (SettingsKey !in items && "theme" !in updates ==> read.value.fields["theme"] == JString("dark"))
  {
  }

  /** `exportMindMap`: null for a missing session or a falsy `mindMap`, else the mind map as stored. */
  function ExportMindMap(items: map<string, Stored>, id: Option<Json>): (r: Option<Json>)
    requires WellFormed(items)
    ensures r.Some? <==> (GetSession(items, id).Some? && "mindMap" in GetSession(items, id).value
      && Truthy(GetSession(items, id).value["mindMap"]))
    ensures r.Some? ==> r.value == GetSession(items, id).value["mindMap"] && Truthy(r.value)
  {
    var session := GetSession(items, id);
    if session.None? || "mindMap" !in session.value || !Truthy(session.value["mindMap"]) then None
    else Some(session.value["mindMap"])
  }
}

=== FILE: thinking.dfy ===
/**
 * The three-step thinking workflow (interview, analysis, solutions): the
 * store that holds the current session and the AI request status, and
 * writes every change of the session through to the session repository.
 */
module Thinking {
  import opened Wrappers
  import opened Json
  import opened LocalStorage
  import opened SessionStorage

  // ---------------------------------------------------------------------
  // generateHash
  // ---------------------------------------------------------------------

  const HashSeed: bv32 := 5381

  /**
   * One step of the hash. `hash * 33` is exact in floating point for a
   * 32-bit `hash`, and `^` reduces it modulo 2^32, so the step is 32-bit
   * multiplication followed by exclusive or.
   */
  function HashStep(h: bv32, unit: bv16): bv32
  {
    (h * 33) ^ (unit as bv32)
  }

  /** The hash folded over the code units, starting from `h`. */
  function HashFrom(h: bv32, units: seq<bv16>): bv32
    decreases |units|
  {
    if units == [] then h else HashFrom(HashStep(h, units[0]), units[1..])
  }

  /** Hashing a concatenation continues from the hash of its first part. */
  lemma {:induction false} HashFromAppend(h: bv32, a: seq<bv16>, b: seq<bv16>)
    ensures HashFrom(h, a + b) == HashFrom(HashFrom(h, a), b)
    decreases |a|
  {
    if a != [] {
      assert (a + b)[1..] == a[1..] + b;
      HashFromAppend(HashStep(h, a[0]), a[1..], b);
    } else {
      assert a + b == b;
    }
  }

  /** The DJB2 hash of a text as the unsigned value `hash >>> 0`. */
  function Djb2(s: string): (h: nat)
    ensures h < 0x1_0000_0000
  {
    HashFrom(HashSeed, CodeUnits(s)) as nat
  }

  /** The hash of a text extended by one more text, computed from the shorter text's hash. */
  lemma Djb2Extend(a: string, b: string)
    ensures Djb2(a + b) == HashFrom(Djb2(a) as bv32, CodeUnits(b)) as nat
  {
    CodeUnitsAppend(a, b);
    HashFromAppend(HashSeed, CodeUnits(a), CodeUnits(b));
  }

  /** Two known values: the empty text hashes to the seed, and `a` to 5381 * 33 xor 97. */
  lemma Djb2Values()
    ensures Djb2("") == 5381
    ensures Djb2("a") == 177604
  {
    assert CodeUnits("a") == [97 as bv16];
  }

  /** `generateHash`: the loop over the code units. */
  method GenerateHash(str: string) returns (hash: nat)
    ensures hash == Djb2(str)
    ensures hash < 0x1_0000_0000
  {
    var units := CodeUnits(str);
    var h: bv32 := 5381;
    var i := 0;
    while i < |units|
      invariant 0 <= i <= |units|
      invariant HashFrom(h, units[i..]) == HashFrom(HashSeed, units)
    {
      assert units[i..][1..] == units[i + 1..];
      h := (h * 33) ^ (units[i] as bv32);
      i := i + 1;
    }
    hash := h as nat;
  }

  // ---------------------------------------------------------------------
  // Lists inside a session
  // ---------------------------------------------------------------------

  /** The result of a `findIndex` whose callback reads a field of each element. */
  datatype Lookup = Found(index: nat) | Missing | Throws

  /**
   * `xs.findIndex(x => x[key] === value)`: the first element whose field
   * is `value`; reading a field of a `null` element throws.
   */
  function FindBy(xs: seq<Json>, key: string, value: Json): (r: Lookup)
    ensures r.Found? ==> (r.index < |xs| && Get(xs[r.index], key) == Some(value)
      && forall j :: 0 <= j < r.index ==> !xs[j].JNull? && Get(xs[j], key) != Some(value))
    ensures r.Missing? ==> forall j :: 0 <= j < |xs| ==> !xs[j].JNull? && Get(xs[j], key) != Some(value)
    ensures r.Throws? ==> exists j :: (0 <= j < |xs| && xs[j].JNull?
      && forall k :: 0 <= k < j ==> Get(xs[k], key) != Some(value))
  {
    if xs == [] then Missing
    else if xs[0].JNull? then Throws
    else if Get(xs[0], key) == Some(value) then Found(0)
    else
      var r := FindBy(xs[1..], key, value);
      match r
      case Found(i) => Found(i + 1)
      case Missing => Missing
      case Throws =>
        var j :| 0 <= j < |xs| - 1 && xs[1..][j].JNull? && forall k :: 0 <= k < j ==> Get(xs[1..][k], key) != Some(value);
        assert xs[j + 1].JNull?;
        Throws
  }

  /**
   * `[...session[field]]` for an array field: its elements; `None` for a
   * field that is missing or not an array. A string spreads into its
   * characters, which callers that can see the difference treat apart.
   */
  function ListOf(session: Obj, field: string): Option<seq<Json>>
  {
    if field in session && session[field].JArray? then Some(session[field].items) else None
  }

  /** `cards[i].status = status` on the found (object) card. */
  function WithStatus(card: Json, status: string): Json
  {
    JObject(Spread(card)["status" := JString(status)])
  }

  /** `{ ...x, ...content }`: the element overlaid with the fields of `content`. */
  function Overlay(x: Json, content: Json): Json
  {
    JObject(Spread(x) + Spread(content))
  }

  /** `filter(x => x.id !== id)`; a `null` element makes the whole call throw. */
  function RemoveById(xs: seq<Json>, id: Json): (r: Option<seq<Json>>)
    ensures r.None? <==> exists j :: 0 <= j < |xs| && xs[j].JNull?
  {
    if xs == [] then Some([])
    else
      var rest := RemoveById(xs[1..], id);
      if xs[0].JNull? || rest.None? then
        assert rest.None? ==> exists j :: 0 <= j < |xs| - 1 && xs[1..][j].JNull?;
        None
      else if Get(xs[0], "id") != Some(id) then Some([xs[0]] + rest.value)
      else Some(rest.value)
  }

  /** The filter works piece by piece, so it keeps the order and the repetitions of the kept elements. */
  lemma {:induction false} RemoveByIdAppend(a: seq<Json>, b: seq<Json>, id: Json)
    ensures RemoveById(a + b, id) ==
      if RemoveById(a, id).Some? && RemoveById(b, id).Some? then Some(RemoveById(a, id).value + RemoveById(b, id).value)
      else None
  {
    if a == [] {
      assert a + b == b;
      assert RemoveById(b, id).Some? ==> [] + RemoveById(b, id).value == RemoveById(b, id).value;
    } else {
      assert (a + b)[0] == a[0] && (a + b)[1..] == a[1..] + b;
      RemoveByIdAppend(a[1..], b, id);
      var ra, rb := RemoveById(a[1..], id), RemoveById(b, id);
      if a[0].JNull? || ra.None? || rb.None? {
      } else if Get(a[0], "id") != Some(id) {
        assert RemoveById(a, id) == Some([a[0]] + ra.value);
        assert [a[0]] + (ra.value + rb.value) == ([a[0]] + ra.value) + rb.value;
      } else {
        assert RemoveById(a, id) == ra;
      }
    }
  }

  /** The filter keeps exactly the elements with another id. */
  lemma {:induction false} RemoveByIdMembers(xs: seq<Json>, id: Json)
    requires RemoveById(xs, id).Some?
    ensures forall x :: x in RemoveById(xs, id).value <==> x in xs && Get(x, "id") != Some(id)
  {
    if xs != [] {
      RemoveByIdMembers(xs[1..], id);
      assert xs == [xs[0]] + xs[1..];
    }
  }

  /** A list without `null` and without the id is left as it is. */
  lemma {:induction false} RemoveByIdAbsent(xs: seq<Json>, id: Json)
    requires forall j :: 0 <= j < |xs| ==> !xs[j].JNull? && Get(xs[j], "id") != Some(id)
    ensures RemoveById(xs, id) == Some(xs)
  {
    if xs != [] {
      RemoveByIdAbsent(xs[1..], id);
      assert xs == [xs[0]] + xs[1..];
    }
  }

  // ---------------------------------------------------------------------
  // Step 1: questions and answers
  // ---------------------------------------------------------------------

  /**
   * The question list taken from the AI result: an array as it is, the
   * `questions` array of a wrapper object, else the empty list.
   */
  function NormalizeQuestions(result: Json): (r: seq<Json>)
    ensures result.JArray? ==> r == result.items
    ensures !result.JArray? && Truthy(result) && Get(result, "questions").Some? && Get(result, "questions").value.JArray? ==>
      r == Get(result, "questions").value.items
    ensures !result.JArray? && !(Get(result, "questions").Some? && Get(result, "questions").value.JArray?) ==> r == []
  {
    if !Truthy(result) then []
    else if result.JArray? then result.items
    else
      var q := Get(result, "questions");
      if q.Some? && q.value.JArray? then q.value.items else []
  }

  /** Normalising is idempotent, and a `{questions: [...]}` wrapper gives the same list as the bare array. */
  lemma NormalizeQuestionsStable(result: Json, xs: seq<Json>)
    ensures NormalizeQuestions(JArray(NormalizeQuestions(result))) == NormalizeQuestions(result)
    ensures NormalizeQuestions(JObject(map["questions" := JArray(xs)])) == NormalizeQuestions(JArray(xs))
  {
  }

  /** The record `saveAnswer` stores for one question. */
  function AnswerEntry(questionId: Json, question: Json, answer: Json): Json
  {
    JObject(map["questionId" := questionId, "question" := question, "answer" := answer])
  }

  /** `interviewAnswers || []` spread into a new array. */
  function AnswersOf(session: Obj): Option<seq<Json>>
  {
    if "interviewAnswers" !in session || !Truthy(session["interviewAnswers"]) then Some([])
    else if session["interviewAnswers"].JArray? then Some(session["interviewAnswers"].items)
    else None
  }

  /**
   * Upsert keyed on `questionId`: the first entry with the id is replaced
   * in place, otherwise the entry is appended; `None` is the throw of a
   * `null` entry met before any match.
   */
  function Upsert(xs: seq<Json>, questionId: Json, entry: Json): (r: Option<seq<Json>>)
    ensures r.None? <==> FindBy(xs, "questionId", questionId).Throws?
  {
    match FindBy(xs, "questionId", questionId)
    case Found(i) => Some(xs[i := entry])
    case Missing => Some(xs + [entry])
    case Throws => None
  }

  /**
   * An answer for a known question replaces that answer at its index; an
   * answer for a new question is appended; every other answer stays where
   * it was.
   */
  lemma UpsertEffect(xs: seq<Json>, questionId: Json, question: Json, answer: Json)
    requires forall j :: 0 <= j < |xs| ==> !xs[j].JNull?
    ensures var r := Upsert(xs, questionId, AnswerEntry(questionId, question, answer));
      r.Some?
      && ((exists i :: 0 <= i < |xs| && Get(xs[i], "questionId") == Some(questionId)) ==>
        exists i :: (0 <= i < |xs| && Get(xs[i], "questionId") == Some(questionId)
          && (forall j :: 0 <= j < i ==> Get(xs[j], "questionId") != Some(questionId))
          && |r.value| == |xs|
          && r.value[i] == AnswerEntry(questionId, question, answer)
          && forall j :: 0 <= j < |xs| && j != i ==> r.value[j] == xs[j]))
      && ((forall i :: 0 <= i < |xs| ==> Get(xs[i], "questionId") != Some(questionId)) ==>
        r.value == xs + [AnswerEntry(questionId, question, answer)])
  {
  }

  /** No two entries share a defined value of `key`. */
  predicate DistinctBy(xs: seq<Json>, key: string)
  {
    forall i, j :: 0 <= i < j < |xs| && Get(xs[i], key).Some? ==> Get(xs[i], key) != Get(xs[j], key)
  }

  /** Upserting keeps the question ids distinct, with exactly one answer for the saved question. */
  lemma UpsertKeepsIdsDistinct(xs: seq<Json>, questionId: Json, question: Json, answer: Json)
    requires DistinctBy(xs, "questionId")
    requires Upsert(xs, questionId, AnswerEntry(questionId, question, answer)).Some?
    ensures var r := Upsert(xs, questionId, AnswerEntry(questionId, question, answer)).value;
      DistinctBy(r, "questionId")
      && exists i :: (0 <= i < |r| && Get(r[i], "questionId") == Some(questionId)
        && forall j :: 0 <= j < |r| && j != i ==> Get(r[j], "questionId") != Some(questionId))
  {
    var e := AnswerEntry(questionId, question, answer);
    var r := Upsert(xs, questionId, e).value;
    assert Get(e, "questionId") == Some(questionId);
    match FindBy(xs, "questionId", questionId)
    case Found(i) =>
      assert r == xs[i := e];
      forall a, b | 0 <= a < b < |r| && Get(r[a], "questionId").Some?
        ensures Get(r[a], "questionId") != Get(r[b], "questionId")
      {
        if a == i {
          assert Get(r[b], "questionId") == Get(xs[b], "questionId");
        } else if b == i {
          assert Get(r[a], "questionId") == Get(xs[a], "questionId");
        }
      }
      assert Get(r[i], "questionId") == Some(questionId);
    case Missing =>
      assert r == xs + [e];
      assert Get(r[|xs|], "questionId") == Some(questionId);
      forall j | 0 <= j < |r| && j != |xs| ensures Get(r[j], "questionId") != Some(questionId) {
        assert r[j] == xs[j];
      }
  }

  // ---------------------------------------------------------------------
  // Step 2: cards
  // ---------------------------------------------------------------------

  /** The cards `generateAnalysisDimensions` builds: each dimension's fields, pending, with null content. */
  function MakeCards(dimensions: seq<Json>): (cards: seq<Json>)
    ensures |cards| == |dimensions|
    ensures forall i :: 0 <= i < |cards| ==> (cards[i].JObject?
      && Get(cards[i], "status") == Some(JString("pending"))
      && Get(cards[i], "content") == Some(JNull)
      && forall k :: k != "status" && k != "content" ==> Get(cards[i], k) == Get(JObject(Spread(dimensions[i])), k))
  {
    seq(|dimensions|, i requires 0 <= i < |dimensions| =>
      JObject(Spread(dimensions[i])["status" := JString("pending")]["content" := JNull]))
  }

  /** The card after a successful analysis: its fields overlaid with the result's, status forced to completed. */
  function MergedCard(card: Json, result: Json): Json
  {
    JObject((Spread(card) + Spread(result))["status" := JString("completed")])
  }

  /**
   * A merged card is completed; each result field wins over the card's;
   * and the card keeps its id exactly when the result carries no other id.
   */
  lemma MergedCardFields(card: Json, result: Json)
    ensures Get(MergedCard(card, result), "status") == Some(JString("completed"))
    ensures forall k :: k != "status" && k in Spread(result) ==> Get(MergedCard(card, result), k) == Some(Spread(result)[k])
    ensures forall k :: k != "status" && k !in Spread(result) ==> Get(MergedCard(card, result), k) == Get(JObject(Spread(card)), k)
    ensures Get(MergedCard(card, result), "id") == Get(JObject(Spread(card)), "id") <==>
      ("id" !in Spread(result) || Get(JObject(Spread(card)), "id") == Some(Spread(result)["id"]))
  {
  }

  // ---------------------------------------------------------------------
  // Step 3: solutions and the mind map
  // ---------------------------------------------------------------------

  /** `{ ...newSolution, id: oldSolution.id }`. */
  function RegeneratedSolution(newSolution: Json, id: Json): Json
  {
    JObject(Spread(newSolution)["id" := id])
  }

  /** A regenerated solution always keeps the old id, whatever the AI returned; its other fields are the AI's. */
  lemma RegeneratedSolutionFields(newSolution: Json, id: Json)
    ensures Get(RegeneratedSolution(newSolution, id), "id") == Some(id)
    ensures forall k :: k != "id" ==> Get(RegeneratedSolution(newSolution, id), k) == Get(JObject(Spread(newSolution)), k)
  {
  }

  /** The object `generateMindMap` serialises for its cache key: problem, cards and solutions. */
  function MindMapSource(session: Obj): Json
  {
    JObject(
      (if "problem" in session then map["problem" := session["problem"]] else map[])
      + (if "analysisCards" in session then map["cards" := session["analysisCards"]] else map[])
      + (if "solutions" in session then map["solutions" := session["solutions"]] else map[]))
  }

  /** The cache test: a truthy mind map stored with this very hash. */
  predicate MindMapCached(session: Obj, hash: nat)
  {
    "mindMap" in session && Truthy(session["mindMap"])
    && "mindMapHash" in session && session["mindMapHash"] == JNumber(hash as real)
  }

  // ---------------------------------------------------------------------
  // The update objects each action passes to updateCurrentSession
  // ---------------------------------------------------------------------

  function QuestionsPatch(questions: seq<Json>, now: string): Patch
  {
    map["interviewQuestions" := Some(JArray(questions)), "updatedAt" := Some(JString(now))]
  }

  function AnswersPatch(answers: seq<Json>, now: string): Patch
  {
    map["interviewAnswers" := Some(JArray(answers)), "updatedAt" := Some(JString(now))]
  }

  const SecondStep: Json := JNumber(2.0)

  function ReportPatch(report: Json, now: string): Patch
  {
    map["understandingReport" := Some(report), "currentStep" := Some(SecondStep), "updatedAt" := Some(JString(now))]
  }

  function RecommendationPatch(result: Json, now: string): Patch
  {
    map[
      "recommendedModels" := Some(OrElse(Get(result, "recommendedModels"), JArray([]))),
      "modelReasons" := Some(OrElse(Get(result, "reasons"), JObject(map[]))),
      "updatedAt" := Some(JString(now))]
  }

  function DimensionsPatch(modelName: string, result: Json, modelId: string, cards: seq<Json>, now: string): Patch
  {
    map[
      "thinkingModel" := (if modelName != "" then Some(JString(modelName)) else Get(result, "thinkingModel")),
      "thinkingModelId" := Some(JString(modelId)),
      "analysisCards" := Some(JArray(cards)),
      "updatedAt" := Some(JString(now))]
  }

  /** `{ analysisCards: cards }`, with `updatedAt` when the action sets it too. */
  function CardsPatch(cards: seq<Json>, stamp: Option<string>): Patch
  {
    if stamp.Some? then map["analysisCards" := Some(JArray(cards)), "updatedAt" := Some(JString(stamp.value))]
    else map["analysisCards" := Some(JArray(cards))]
  }

  function DeepReportPatch(report: string, now: string): Patch
  {
    map["deepAnalysisReport" := Some(JString(report)), "updatedAt" := Some(JString(now))]
  }

  /** `solutions: result.solutions, recommendation: result.recommendation`; missing fields are undefined. */
  function SolutionsPatch(result: Json, now: string): Patch
  {
    map[
      "solutions" := Get(result, "solutions"),
      "recommendation" := Get(result, "recommendation"),
      "updatedAt" := Some(JString(now))]
  }

  /** `{ solutions }`, with `updatedAt` when the action sets it too. */
  function SolutionListPatch(solutions: seq<Json>, stamp: Option<string>): Patch
  {
    if stamp.Some? then map["solutions" := Some(JArray(solutions)), "updatedAt" := Some(JString(stamp.value))]
    else map["solutions" := Some(JArray(solutions))]
  }

  function MindMapPatch(mindMap: string, hash: nat, now: string): Patch
  {
    map["mindMap" := Some(JString(mindMap)), "mindMapHash" := Some(JNumber(hash as real)), "updatedAt" := Some(JString(now))]
  }

  /**
   * Only the understanding report moves the workflow on: its update sets
   * step 2, and no other action's update touches `currentStep` or `id`.
   */
  lemma OnlyReportSetsStep(report: Json, result: Json, xs: seq<Json>, text: string, hash: nat, name: string, modelId: string, now: string, stamp: Option<string>)
    ensures ReportPatch(report, now)["currentStep"] == Some(SecondStep)
    ensures forall p :: p in {QuestionsPatch(xs, now), AnswersPatch(xs, now), RecommendationPatch(result, now),
        DimensionsPatch(name, result, modelId, xs, now), CardsPatch(xs, stamp), DeepReportPatch(text, now),
        SolutionsPatch(result, now), SolutionListPatch(xs, stamp), MindMapPatch(text, hash, now)} ==>
      "currentStep" !in p && "id" !in p
    ensures "id" !in ReportPatch(report, now)
  {
  }

  /**
   * Storing a fresh mind map makes the next request a cache hit: the
   * update leaves problem, cards and solutions alone and records the hash
   * with a truthy map.
   */
  lemma MindMapHitAfterStore(session: Obj, mindMap: string, hash: nat, now: string)
    requires mindMap != ""
    ensures var after := UpdatedRecord(session, MindMapPatch(mindMap, hash, now), now);
      MindMapSource(after) == MindMapSource(session) && MindMapCached(after, hash)
  {
    var after := UpdatedRecord(session, MindMapPatch(mindMap, hash, now), now);
    UpdatedRecordFields(session, MindMapPatch(mindMap, hash, now), now);
    assert forall k :: k in {"problem", "analysisCards", "solutions"} ==>
      (k in after <==> k in session) && (k in session ==> after[k] == session[k]);
  }

  // ---------------------------------------------------------------------
  // The store
  // ---------------------------------------------------------------------

  datatype AiStatus = Idle | Requesting | Receiving | Completed

  /**
   * How an awaited AI call ended: the value it returned, or the message of
   * what it threw; either way with the last length the streaming progress
   * callback reported (`None` when no chunk arrived).
   */
  datatype AiOutcome<T> = Returned(value: T, progress: Option<nat>) | Threw(message: string, progress: Option<nat>)

  /** The response length after a call: the last progress report, or the reset value 0. */
  function Received(progress: Option<nat>): nat
  {
    if progress.Some? then progress.value else 0
  }

  /** The translation key `handleError` falls back on for an error without a message. */
  const UnknownErrorKey: string := "common.unknown_error"

  /** Stands for the message of the `TypeError` the engine throws on a field read of `undefined` or a missing method. */
  const TypeErrorMessage: string := "TypeError"

  /** `thinking_models.<id>.name`, the key of a model's display name. */
  function ModelNameKey(modelId: string): string
  {
    "thinking_models." + modelId + ".name"
  }

  /**
   * What an action does once the AI call is over: write an update, fail
   * with a message (the call threw, or the code after it did), or return
   * early inside the `try`.
   */
  datatype Step = Commit(updates: Patch) | Fail(message: string) | Stop

  function QuestionsStep(outcome: AiOutcome<Json>, now: string): Step
  {
    match outcome
    case Returned(result, _) => Commit(QuestionsPatch(NormalizeQuestions(result), now))
    case Threw(message, _) => Fail(message)
  }

  function ReportStep(outcome: AiOutcome<Json>, now: string): Step
  {
    match outcome
    case Returned(report, _) => Commit(ReportPatch(report, now))
    case Threw(message, _) => Fail(message)
  }

  /** `result.dimensions.map(...)` throws unless `dimensions` is an array. */
  function DimensionsStep(outcome: AiOutcome<Json>, modelName: string, modelId: string, now: string): Step
  {
    match outcome
    case Returned(result, _) =>
      var dimensions := Get(result, "dimensions");
      if dimensions.Some? && dimensions.value.JArray? then
        Commit(DimensionsPatch(modelName, result, modelId, MakeCards(dimensions.value.items), now))
      else Fail(TypeErrorMessage)
    case Threw(message, _) => Fail(message)
  }

  function DeepReportStep(outcome: AiOutcome<string>, now: string): Step
  {
    match outcome
    case Returned(report, _) => Commit(DeepReportPatch(report, now))
    case Threw(message, _) => Fail(message)
  }

  /** Reading `result.solutions` of a `null` result throws. */
  function SolutionsStep(outcome: AiOutcome<Json>, now: string): Step
  {
    match outcome
    case Returned(result, _) => if result.JNull? then Fail(TypeErrorMessage) else Commit(SolutionsPatch(result, now))
    case Threw(message, _) => Fail(message)
  }

  function MindMapStep(outcome: AiOutcome<string>, hash: nat, now: string): Step
  {
    match outcome
    case Returned(mindMap, _) => Commit(MindMapPatch(mindMap, hash, now))
    case Threw(message, _) => Fail(message)
  }

  /**
   * `regenerateSolution` after its request has started: a solution list
   * that cannot be spread, or a `null` entry met by the search, throws; an
   * unknown id returns, and so does a string list, whose characters have
   * no `id`; otherwise the AI payload replaces the solution under the old
   * id.
   */
  function RegenerateStep(session: Obj, id: Json, outcome: AiOutcome<Json>, now: string): Step
  {
    var solutions := ListOf(session, "solutions");
    if "solutions" in session && session["solutions"].JString? then Stop
    else if solutions.None? then Fail(TypeErrorMessage)
    else match FindBy(solutions.value, "id", id)
      case Throws => Fail(TypeErrorMessage)
      case Missing => Stop
      case Found(i) =>
        match outcome
        case Returned(newSolution, _) =>
          Commit(SolutionListPatch(solutions.value[i := RegeneratedSolution(newSolution, id)], Some(now)))
        case Threw(message, _) => Fail(message)
  }

  /** The AI is only called once the solution is found. */
  function RegenerateProgress(session: Obj, id: Json, outcome: AiOutcome<Json>): Option<nat>
  {
    var solutions := ListOf(session, "solutions");
    if solutions.Some? && FindBy(solutions.value, "id", id).Found? then outcome.progress else None
  }

  /** An unknown solution id leaves the list as it was: nothing is written. */
  lemma RegenerateUnknownWritesNothing(session: Obj, id: Json, outcome: AiOutcome<Json>, now: string)
    requires ListOf(session, "solutions").Some?
    requires forall j :: 0 <= j < |ListOf(session, "solutions").value| ==>
      var x := ListOf(session, "solutions").value[j]; !x.JNull? && Get(x, "id") != Some(id)
    ensures RegenerateStep(session, id, outcome, now) == Stop
    ensures RegenerateProgress(session, id, outcome).None?
  {
  }

  /**
   * A string solution list spreads into one-character strings, none of
   * which has the id: the call returns before the AI, writing nothing,
   * and only a list that is neither an array nor a string throws.
   */
  lemma RegenerateStringListStops(session: Obj, id: Json, outcome: AiOutcome<Json>, now: string)
    ensures "solutions" in session && session["solutions"].JString? ==>
      RegenerateStep(session, id, outcome, now) == Stop && RegenerateProgress(session, id, outcome).None?
    ensures RegenerateStep(session, id, outcome, now) == Fail(TypeErrorMessage) && ListOf(session, "solutions").None? ==>
      "solutions" !in session || !session["solutions"].JString?
  {
  }

  /** A regenerated solution is stored at its old index under its old id; the others stay as they were. */
  lemma RegenerateKeepsId(session: Obj, id: Json, newSolution: Json, progress: Option<nat>, now: string)
    requires ListOf(session, "solutions").Some?
    requires FindBy(ListOf(session, "solutions").value, "id", id).Found?
    ensures var xs := ListOf(session, "solutions").value;
      var i := FindBy(xs, "id", id).index;
      var step := RegenerateStep(session, id, Returned(newSolution, progress), now);
      step.Commit? && "solutions" in step.updates && step.updates["solutions"].Some?
      && step.updates["solutions"].value.JArray?
      && var ys := step.updates["solutions"].value.items;
        |ys| == |xs| && Get(ys[i], "id") == Get(xs[i], "id") == Some(id)
        && (forall j :: 0 <= j < |xs| && j != i ==> ys[j] == xs[j])
  {
  }

  /** The cards after `cards[i].status = 'analyzing'`. */
  function AnalyzingCards(cards: seq<Json>, i: nat): seq<Json>
    requires i < |cards|
  {
    cards[i := WithStatus(cards[i], "analyzing")]
  }

  /**
   * The cards a card action writes last: the analysing card merged with the
   * result, or that card with the rollback status when the call failed.
   */
  function CardsAfter(cards: seq<Json>, i: nat, outcome: AiOutcome<Json>, rollback: string): seq<Json>
    requires i < |cards|
  {
    var analyzing := AnalyzingCards(cards, i);
    match outcome
    case Returned(result, _) => analyzing[i := MergedCard(analyzing[i], result)]
    case Threw(_, _) => analyzing[i := WithStatus(analyzing[i], rollback)]
  }

  /**
   * Only the analysed card changes: on success it is the card overlaid with
   * the result and completed; on failure it is the card as it was, with the
   * rollback status.
   */
  lemma CardsAfterEffect(cards: seq<Json>, i: nat, outcome: AiOutcome<Json>, rollback: string)
    requires i < |cards|
    ensures var r := CardsAfter(cards, i, outcome, rollback);
      |r| == |cards| && (forall j :: 0 <= j < |cards| && j != i ==> r[j] == cards[j])
    ensures outcome.Returned? ==>
      var c := CardsAfter(cards, i, outcome, rollback)[i];
      Get(c, "status") == Some(JString("completed"))
      && forall k :: k != "status" ==> Get(c, k) == (if k in Spread(outcome.value) then Some(Spread(outcome.value)[k]) else Get(cards[i], k))
    ensures outcome.Threw? ==>
      var c := CardsAfter(cards, i, outcome, rollback)[i];
      Get(c, "status") == Some(JString(rollback))
      && forall k :: k != "status" ==> Get(c, k) == Get(JObject(Spread(cards[i])), k)
  {
  }

  /** The interim write of a card action is fully overwritten by its final write. */
  lemma CardWritesCollapse(s: Obj, interim: seq<Json>, final: seq<Json>, stamp: Option<string>, now: string)
    ensures UpdatedRecord(UpdatedRecord(s, CardsPatch(interim, None), now), CardsPatch(final, stamp), now)
      == UpdatedRecord(s, CardsPatch(final, stamp), now)
  {
    var a := UpdatedRecord(UpdatedRecord(s, CardsPatch(interim, None), now), CardsPatch(final, stamp), now);
    var b := UpdatedRecord(s, CardsPatch(final, stamp), now);
    assert a.Keys == b.Keys;
    assert forall k :: k in a ==> a[k] == b[k];
  }

  /** The card a card action works on: the card list and the card's index, when the action goes ahead. */
  function CardTarget(session: Obj, cardId: Json): Option<(seq<Json>, nat)>
  {
    var cards := ListOf(session, "analysisCards");
    if cards.Some? && FindBy(cards.value, "id", cardId).Found? then
      Some((cards.value, FindBy(cards.value, "id", cardId).index))
    else None
  }

  /** `saveAnswer`'s update, or `None` when it throws before writing. */
  function AnswerEdit(session: Obj, questionId: Json, question: Json, answer: Json, now: string): Option<Patch>
  {
    var answers := AnswersOf(session);
    if answers.None? then None
    else
      var r := Upsert(answers.value, questionId, AnswerEntry(questionId, question, answer));
      if r.None? then None else Some(AnswersPatch(r.value, now))
  }

  /** `updateAnalysisCard`'s update, or `None` when the card is not found (or the search throws). */
  function CardEdit(session: Obj, cardId: Json, content: Json): Option<Patch>
  {
    var cards := ListOf(session, "analysisCards");
    if cards.None? then None
    else match FindBy(cards.value, "id", cardId)
      case Found(i) => Some(CardsPatch(cards.value[i := Overlay(cards.value[i], content)], None))
      case _ => None
  }

  /** `deleteAnalysisCard`'s update, or `None` when the filter throws. */
  function CardDeletion(session: Obj, cardId: Json): Option<Patch>
  {
    var cards := ListOf(session, "analysisCards");
    if cards.None? then None
    else
      var kept := RemoveById(cards.value, cardId);
      if kept.None? then None else Some(CardsPatch(kept.value, None))
  }

  /** `updateSolution`'s update, or `None` when the solution is not found (or the search throws). */
  function SolutionEdit(session: Obj, id: Json, content: Json): Option<Patch>
  {
    var solutions := ListOf(session, "solutions");
    if solutions.None? then None
    else match FindBy(solutions.value, "id", id)
      case Found(i) => Some(SolutionListPatch(solutions.value[i := Overlay(solutions.value[i], content)], None))
      case _ => None
  }

  class ThinkingStore {
    /** The session repository's storage. */
    const ls: LocalStore
    /** `t(key)`: the translated text of a key. */
    const translate: string -> string
    /** `JSON.stringify`, which the mind-map cache hashes. */
    const stringify: Json -> string

    var currentSession: Option<Obj>
    var loading: bool
    var error: Option<string>
    var aiStatus: AiStatus
    var aiResponseCount: nat

    /** The session in the store is one the repository holds: every change is written through. */
    predicate Valid()
      reads this, ls
    {
      WellFormed(ls.items)
      && (currentSession.Some? ==> currentSession.value in GetSessions(ls.items))
    }

    constructor (ls: LocalStore, translate: string -> string, stringify: Json -> string)
      requires WellFormed(ls.items)
      ensures this.ls == ls && this.translate == translate && this.stringify == stringify
      ensures currentSession.None? && !loading && error.None? && aiStatus == Idle && aiResponseCount == 0
      ensures Valid()
    {
      this.ls := ls;
      this.translate := translate;
      this.stringify := stringify;
      currentSession := None;
      loading := false;
      error := None;
      aiStatus := Idle;
      aiResponseCount := 0;
    }

    /** The text `handleError` records: the error's message, or the translated fallback. */
    function ErrorText(message: string): string
    {
      if message != "" then message else translate(UnknownErrorKey)
    }

    /** How a successful AI action leaves the request fields. */
    predicate EndedOk(progress: Option<nat>)
      reads this
    {
      !loading && error.None? && aiStatus == Completed && aiResponseCount == Received(progress)
    }

    /** How a failed AI action leaves the request fields. */
    predicate EndedWithError(message: string, progress: Option<nat>)
      reads this
    {
      !loading && error == Some(ErrorText(message)) && aiStatus == Idle && aiResponseCount == Received(progress)
    }

    /** The store and the repository hold the outcome of `updateSession` on the session `before` names. */
    predicate Committed(items: map<string, Stored>, before: Obj, updates: Patch, now: string)
      requires WellFormed(items)
      reads this, ls
    {
      ls.items == UpdatedItems(items, IdOf(before), updates, now)
      && currentSession == UpdatedSession(items, IdOf(before), updates, now)
    }

    // -- helper actions ---------------------------------------------------

    /** `setLoading`: a new request also clears the previous error. */
    method SetLoading(status: bool)
      modifies this
      ensures loading == status && error == (if status then None else old(error))
      ensures currentSession == old(currentSession) && aiStatus == old(aiStatus) && aiResponseCount == old(aiResponseCount)
    {
      loading := status;
      if status {
        error := None;
      }
    }

    /** `setAiStatus`: a new request resets the response length. */
    method SetAiStatus(status: AiStatus)
      modifies this
      ensures aiStatus == status && aiResponseCount == (if status == Requesting then 0 else old(aiResponseCount))
      ensures currentSession == old(currentSession) && loading == old(loading) && error == old(error)
    {
      aiStatus := status;
      if status == Requesting {
        aiResponseCount := 0;
      }
    }

    /** `handleAiProgress`: a chunk arrived; the length is the response so far. */
    method HandleAiProgress(currentLength: nat)
      modifies this
      ensures aiStatus == Receiving && aiResponseCount == currentLength
      ensures currentSession == old(currentSession) && loading == old(loading) && error == old(error)
    {
      aiStatus := Receiving;
      aiResponseCount := currentLength;
    }

    /** `handleError`: records the message, stops loading and returns to idle. */
    method HandleError(message: string)
      modifies this
      ensures error == Some(ErrorText(message)) && !loading && aiStatus == Idle
      ensures currentSession == old(currentSession) && aiResponseCount == old(aiResponseCount)
    {
      error := Some(ErrorText(message));
      loading := false;
      aiStatus := Idle;
    }

    /** The opening of every AI action: `setLoading(true)` and `setAiStatus('requesting')`. */
    method BeginRequest()
      modifies this
      ensures loading && error.None? && aiStatus == Requesting && aiResponseCount == 0
      ensures currentSession == old(currentSession)
    {
      SetLoading(true);
      SetAiStatus(Requesting);
    }

    /** The progress callbacks of one call; only the last one is visible afterwards. */
    method Stream(progress: Option<nat>)
      requires aiResponseCount == 0
      modifies this
      ensures aiResponseCount == Received(progress)
      ensures aiStatus == (if progress.Some? then Receiving else old(aiStatus))
      ensures currentSession == old(currentSession) && loading == old(loading) && error == old(error)
    {
      if progress.Some? {
        HandleAiProgress(progress.value);
      }
    }

    // -- session management -----------------------------------------------

    /** `updateCurrentSession`: no session, no effect; otherwise the repository's answer becomes the session. */
    method UpdateCurrentSession(updates: Patch, now: string)
      requires Valid()
      modifies this, ls
      ensures Valid()
      ensures old(currentSession).None? ==> ls.items == old(ls.items) && currentSession.None?
      ensures old(currentSession).Some? ==> Committed(old(ls.items), old(currentSession).value, updates, now)
      ensures loading == old(loading) && error == old(error)
      ensures aiStatus == old(aiStatus) && aiResponseCount == old(aiResponseCount)
    {
      if currentSession.None? {
        return;
      }
      var updated := SessionStorage.UpdateSession(ls, IdOf(currentSession.value), updates, now);
      UpdatedSessionStored(old(ls.items), IdOf(currentSession.value), updates, now);
      currentSession := updated;
    }

    /** `createSession`: the repository creates the record, which becomes the current session. */
    method CreateSession(problem: string, id: string, now: string) returns (session: Obj)
      requires Valid()
      modifies this, ls
      ensures Valid()
      ensures session == NewSession(problem, id, now) && currentSession == Some(session)
      ensures ls.items == WithCurrentId(old(ls.items)[SessionsKey := Records([session] + GetSessions(old(ls.items)))], Some(id))
      ensures loading == old(loading) && error == old(error)
      ensures aiStatus == old(aiStatus) && aiResponseCount == old(aiResponseCount)
    {
      session := SessionStorage.CreateSession(ls, problem, id, now);
      currentSession := Some(session);
    }

    /** `loadSession`: a stored session becomes current and the stored current id names it; an unknown id changes nothing. */
    method LoadSession(id: string) returns (session: Option<Obj>)
      requires Valid()
      modifies this, ls
      ensures Valid()
      ensures session == GetSession(old(ls.items), Some(JString(id)))
      ensures session.Some? ==> currentSession == session && ls.items == WithCurrentId(old(ls.items), Some(id))
      ensures session.None? ==> currentSession == old(currentSession) && ls.items == old(ls.items)
      ensures loading == old(loading) && error == old(error)
      ensures aiStatus == old(aiStatus) && aiResponseCount == old(aiResponseCount)
    {
      session := SessionStorage.GetSession(ls.items, Some(JString(id)));
      if session.Some? {
        currentSession := session;
        SessionStorage.SetCurrentSessionId(ls, Some(id));
      }
    }

    /** `loadCurrentSession`: the session the stored current id names becomes current, if there is one. */
    method LoadCurrentSession() returns (session: Option<Obj>)
      requires Valid()
      modifies this
      ensures Valid()
      ensures session == GetCurrentSession(ls.items)
      ensures currentSession == (if session.Some? then session else old(currentSession))
      ensures loading == old(loading) && error == old(error)
      ensures aiStatus == old(aiStatus) && aiResponseCount == old(aiResponseCount)
    {
      session := SessionStorage.GetCurrentSession(ls.items);
      if session.Some? {
        currentSession := session;
      }
    }

    /** The store and the repository after an action that ran its request to `step`. */
    predicate Concluded(items: map<string, Stored>, before: Obj, step: Step, progress: Option<nat>, now: string)
      requires WellFormed(items)
      reads this, ls
    {
      match step
      case Commit(updates) => Committed(items, before, updates, now) && EndedOk(progress)
      case Fail(message) =>
        ls.items == items && currentSession == Some(before) && EndedWithError(message, progress)
      case Stop =>
        ls.items == items && currentSession == Some(before)
        && !loading && error.None? && aiStatus == Requesting && aiResponseCount == 0
    }

    /** The store and the repository after a synchronous edit (`None`: the action returned or threw before writing). */
    predicate Edited(items: map<string, Stored>, before: Option<Obj>, edit: Option<Patch>, now: string)
      requires WellFormed(items)
      reads this, ls
    {
      if before.None? || edit.None? then ls.items == items && currentSession == before
      else Committed(items, before.value, edit.value, now)
    }

    /**
     * The shared shape of the AI actions: start the request, stream, then
     * write the update and complete, or record the error; loading always
     * ends.
     */
    method RunRequest(step: Step, progress: Option<nat>, now: string)
      requires Valid() && currentSession.Some?
      modifies this, ls
      ensures Valid()
      ensures Concluded(old(ls.items), old(currentSession).value, step, progress, now)
    {
      BeginRequest();
      if !step.Stop? {
        Stream(progress);
      }
      match step {
        case Commit(updates) =>
          UpdateCurrentSession(updates, now);
          SetAiStatus(Completed);
        case Fail(message) =>
          HandleError(message);
        case Stop =>
      }
      SetLoading(false);
    }

    /** `generateQuestions`: the normalised question list is stored. */
    method GenerateQuestions(outcome: AiOutcome<Json>, now: string)
      requires Valid()
      modifies this, ls
      ensures Valid()
      ensures old(currentSession).None? ==> unchanged(this) && unchanged(ls)
      ensures old(currentSession).Some? ==>
        Concluded(old(ls.items), old(currentSession).value, QuestionsStep(outcome, now), outcome.progress, now)
    {
      if currentSession.None? {
        return;
      }
      RunRequest(QuestionsStep(outcome, now), outcome.progress, now);
    }

    /** `generateUnderstandingReport`: the report is stored and the workflow moves to step 2. */
    method GenerateUnderstandingReport(outcome: AiOutcome<Json>, now: string)
      requires Valid()
      modifies this, ls
      ensures Valid()
      ensures old(currentSession).None? ==> unchanged(this) && unchanged(ls)
      ensures old(currentSession).Some? ==>
        Concluded(old(ls.items), old(currentSession).value, ReportStep(outcome, now), outcome.progress, now)
    {
      if currentSession.None? {
        return;
      }
      RunRequest(ReportStep(outcome, now), outcome.progress, now);
    }

    /**
     * `recommendModels`: stores the recommendations (defaults `[]` and `{}`)
     * and returns the result, or records the error and rethrows it; the
     * status is idle afterwards either way. `None` is the early `undefined`.
     */
    method RecommendModels(outcome: AiOutcome<Json>, now: string) returns (r: Option<Result<Json>>)
      requires Valid()
      modifies this, ls
      ensures Valid()
      ensures old(currentSession).None? ==> r.None? && unchanged(this) && unchanged(ls)
      ensures old(currentSession).Some? && outcome.Returned? && !outcome.value.JNull? ==>
        r == Some(Success(outcome.value))
        && Committed(old(ls.items), old(currentSession).value, RecommendationPatch(outcome.value, now), now)
        && !loading && error.None? && aiStatus == Idle && aiResponseCount == Received(outcome.progress)
      ensures old(currentSession).Some? && outcome.Returned? && outcome.value.JNull? ==>
        r == Some(Failure(TypeErrorMessage))
        && ls.items == old(ls.items) && currentSession == old(currentSession)
        && EndedWithError(TypeErrorMessage, outcome.progress)
      ensures old(currentSession).Some? && outcome.Threw? ==>
        r == Some(Failure(outcome.message))
        && ls.items == old(ls.items) && currentSession == old(currentSession)
        && EndedWithError(outcome.message, outcome.progress)
    {
      if currentSession.None? {
        return None;
      }
      BeginRequest();
      Stream(outcome.progress);
      match outcome {
        case Returned(result, _) =>
          if result.JNull? {
            HandleError(TypeErrorMessage);
            r := Some(Failure(TypeErrorMessage));
          } else {
            UpdateCurrentSession(RecommendationPatch(result, now), now);
            r := Some(Success(result));
          }
        case Threw(message, _) =>
          HandleError(message);
          r := Some(Failure(message));
      }
      SetLoading(false);
      SetAiStatus(Idle);
    }

    /**
     * `generateAnalysisDimensions`: one pending card per dimension, the
     * model's translated name (or the AI's when the translation is empty)
     * and its id are stored.
     */
    method GenerateAnalysisDimensions(modelId: string, outcome: AiOutcome<Json>, now: string)
      requires Valid()
      modifies this, ls
      ensures Valid()
      ensures old(currentSession).None? ==> unchanged(this) && unchanged(ls)
      ensures old(currentSession).Some? ==>
        Concluded(old(ls.items), old(currentSession).value,
          DimensionsStep(outcome, translate(ModelNameKey(modelId)), modelId, now), outcome.progress, now)
    {
      if currentSession.None? {
        return;
      }
      RunRequest(DimensionsStep(outcome, translate(ModelNameKey(modelId)), modelId, now), outcome.progress, now);
    }

    /**
     * The shared body of `analyzeDimension` and `reanalyzeCard`: mark the
     * card analysing and write it, run the request, then write the merged
     * card, or the card with the rollback status.
     */
    method RunCardAction(cardId: Json, outcome: AiOutcome<Json>, now: string, rollback: string)
      requires Valid()
      modifies this, ls
      ensures Valid()
      ensures old(currentSession).None? || CardTarget(old(currentSession).value, cardId).None? ==>
        unchanged(this) && unchanged(ls)
      ensures old(currentSession).Some? && CardTarget(old(currentSession).value, cardId).Some? ==>
        var cards := CardTarget(old(currentSession).value, cardId).value.0;
        var i := CardTarget(old(currentSession).value, cardId).value.1;
        var id := IdOf(old(currentSession).value);
        var interim := UpdatedItems(old(ls.items), id, CardsPatch(AnalyzingCards(cards, i), None), now);
        var final := CardsPatch(CardsAfter(cards, i, outcome, rollback), if outcome.Returned? then Some(now) else None);
        ls.items == UpdatedItems(interim, id, final, now)
        && currentSession == UpdatedSession(interim, id, final, now)
        && (outcome.Returned? ==> EndedOk(outcome.progress))
        && (outcome.Threw? ==> EndedWithError(outcome.message, outcome.progress))
    {
      if currentSession.None? {
        return;
      }
      var target := CardTarget(currentSession.value, cardId);
      if target.None? {
        return;
      }
      var cards := target.value.0;
      var i := target.value.1;
      var session := currentSession.value;
      var analyzing := AnalyzingCards(cards, i);
      UpdateKeepsId(ls.items, session, CardsPatch(analyzing, None), now);
      UpdateCurrentSession(CardsPatch(analyzing, None), now);
      ghost var interim := ls.items;
      BeginRequest();
      Stream(outcome.progress);
      var final := CardsAfter(cards, i, outcome, rollback);
      match outcome {
        case Returned(_, _) =>
          UpdateCurrentSession(CardsPatch(final, Some(now)), now);
          SetAiStatus(Completed);
        case Threw(message, _) =>
          HandleError(message);
          UpdateCurrentSession(CardsPatch(final, None), now);
      }
      SetLoading(false);
    }

    /** `analyzeDimension`: a failed analysis puts the card back to pending. */
    method AnalyzeDimension(cardId: Json, outcome: AiOutcome<Json>, now: string)
      requires Valid()
      modifies this, ls
      ensures Valid()
      ensures old(currentSession).None? || CardTarget(old(currentSession).value, cardId).None? ==>
        unchanged(this) && unchanged(ls)
      ensures old(currentSession).Some? && CardTarget(old(currentSession).value, cardId).Some? ==>
        var cards := CardTarget(old(currentSession).value, cardId).value.0;
        var i := CardTarget(old(currentSession).value, cardId).value.1;
        var id := IdOf(old(currentSession).value);
        var interim := UpdatedItems(old(ls.items), id, CardsPatch(AnalyzingCards(cards, i), None), now);
        var final := CardsPatch(CardsAfter(cards, i, outcome, "pending"), if outcome.Returned? then Some(now) else None);
        ls.items == UpdatedItems(interim, id, final, now)
        && currentSession == UpdatedSession(interim, id, final, now)
        && (outcome.Returned? ==> EndedOk(outcome.progress))
        && (outcome.Threw? ==> EndedWithError(outcome.message, outcome.progress))
    {
      RunCardAction(cardId, outcome, now, "pending");
    }

    /** `reanalyzeCard`: a failed re-analysis leaves the card completed. */
    method ReanalyzeCard(cardId: Json, outcome: AiOutcome<Json>, now: string)
      requires Valid()
      modifies this, ls
      ensures Valid()
      ensures old(currentSession).None? || CardTarget(old(currentSession).value, cardId).None? ==>
        unchanged(this) && unchanged(ls)
      ensures old(currentSession).Some? && CardTarget(old(currentSession).value, cardId).Some? ==>
        var cards := CardTarget(old(currentSession).value, cardId).value.0;
        var i := CardTarget(old(currentSession).value, cardId).value.1;
        var id := IdOf(old(currentSession).value);
        var interim := UpdatedItems(old(ls.items), id, CardsPatch(AnalyzingCards(cards, i), None), now);
        var final := CardsPatch(CardsAfter(cards, i, outcome, "completed"), if outcome.Returned? then Some(now) else None);
        ls.items == UpdatedItems(interim, id, final, now)
        && currentSession == UpdatedSession(interim, id, final, now)
        && (outcome.Returned? ==> EndedOk(outcome.progress))
        && (outcome.Threw? ==> EndedWithError(outcome.message, outcome.progress))
    {
      RunCardAction(cardId, outcome, now, "completed");
    }

    /** `generateDeepAnalysisReport`: the raw report text is stored. */
    method GenerateDeepAnalysisReport(outcome: AiOutcome<string>, now: string)
      requires Valid()
      modifies this, ls
      ensures Valid()
      ensures old(currentSession).None? ==> unchanged(this) && unchanged(ls)
      ensures old(currentSession).Some? ==>
        Concluded(old(ls.items), old(currentSession).value, DeepReportStep(outcome, now), outcome.progress, now)
    {
      if currentSession.None? {
        return;
      }
      RunRequest(DeepReportStep(outcome, now), outcome.progress, now);
    }

    /** `generateSolutions`: the solutions and the recommendation are stored. */
    method GenerateSolutions(outcome: AiOutcome<Json>, now: string)
      requires Valid()
      modifies this, ls
      ensures Valid()
      ensures old(currentSession).None? ==> unchanged(this) && unchanged(ls)
      ensures old(currentSession).Some? ==>
        Concluded(old(ls.items), old(currentSession).value, SolutionsStep(outcome, now), outcome.progress, now)
    {
      if currentSession.None? {
        return;
      }
      RunRequest(SolutionsStep(outcome, now), outcome.progress, now);
    }

    /** `regenerateSolution`: the new solution replaces the old one under the old id. */
    method RegenerateSolution(id: Json, outcome: AiOutcome<Json>, now: string)
      requires Valid()
      modifies this, ls
      ensures Valid()
      ensures old(currentSession).None? ==> unchanged(this) && unchanged(ls)
      ensures old(currentSession).Some? ==>
        Concluded(old(ls.items), old(currentSession).value,
          RegenerateStep(old(currentSession).value, id, outcome, now),
          RegenerateProgress(old(currentSession).value, id, outcome), now)
    {
      if currentSession.None? {
        return;
      }
      var session := currentSession.value;
      RunRequest(RegenerateStep(session, id, outcome, now), RegenerateProgress(session, id, outcome), now);
    }

    /**
     * `generateMindMap`: skipped (no AI call, no change) when the stored
     * map is truthy and was made for the same problem, cards and
     * solutions; otherwise the map and its hash are stored.
     */
    method GenerateMindMap(outcome: AiOutcome<string>, now: string) returns (called: bool)
      requires Valid()
      modifies this, ls
      ensures Valid()
      ensures called <==> (old(currentSession).Some?
        && !MindMapCached(old(currentSession).value, Djb2(stringify(MindMapSource(old(currentSession).value)))))
      ensures !called ==> unchanged(this) && unchanged(ls)
      ensures called ==>
        Concluded(old(ls.items), old(currentSession).value,
          MindMapStep(outcome, Djb2(stringify(MindMapSource(old(currentSession).value))), now), outcome.progress, now)
    {
      if currentSession.None? {
        return false;
      }
      var hash := GenerateHash(stringify(MindMapSource(currentSession.value)));
      if MindMapCached(currentSession.value, hash) {
        return false;
      }
      RunRequest(MindMapStep(outcome, hash, now), outcome.progress, now);
      called := true;
    }

    /** `saveAnswer`: the answer list with this answer upserted is stored. */
    method SaveAnswer(questionId: Json, question: Json, answer: Json, now: string)
      requires Valid()
      modifies this, ls
      ensures Valid()
      ensures old(currentSession).Some? ==>
        Edited(old(ls.items), old(currentSession), AnswerEdit(old(currentSession).value, questionId, question, answer, now), now)
      ensures old(currentSession).None? ==> unchanged(this) && unchanged(ls)
      ensures loading == old(loading) && error == old(error)
      ensures aiStatus == old(aiStatus) && aiResponseCount == old(aiResponseCount)
    {
      if currentSession.None? {
        return;
      }
      var edit := AnswerEdit(currentSession.value, questionId, question, answer, now);
      if edit.Some? {
        UpdateCurrentSession(edit.value, now);
      }
    }

    /** `updateAnalysisCard`: the card's fields are overlaid with the new content. */
    method UpdateAnalysisCard(cardId: Json, content: Json, now: string)
      requires Valid()
      modifies this, ls
      ensures Valid()
      ensures old(currentSession).Some? ==>
        Edited(old(ls.items), old(currentSession), CardEdit(old(currentSession).value, cardId, content), now)
      ensures old(currentSession).None? ==> unchanged(this) && unchanged(ls)
      ensures loading == old(loading) && error == old(error)
      ensures aiStatus == old(aiStatus) && aiResponseCount == old(aiResponseCount)
    {
      if currentSession.None? {
        return;
      }
      var edit := CardEdit(currentSession.value, cardId, content);
      if edit.Some? {
        UpdateCurrentSession(edit.value, now);
      }
    }

    /** `deleteAnalysisCard`: every card with the id is dropped. */
    method DeleteAnalysisCard(cardId: Json, now: string)
      requires Valid()
      modifies this, ls
      ensures Valid()
      ensures old(currentSession).Some? ==>
        Edited(old(ls.items), old(currentSession), CardDeletion(old(currentSession).value, cardId), now)
      ensures old(currentSession).None? ==> unchanged(this) && unchanged(ls)
      ensures loading == old(loading) && error == old(error)
      ensures aiStatus == old(aiStatus) && aiResponseCount == old(aiResponseCount)
    {
      if currentSession.None? {
        return;
      }
      var edit := CardDeletion(currentSession.value, cardId);
      if edit.Some? {
        UpdateCurrentSession(edit.value, now);
      }
    }

    /** `updateSolution`: the solution's fields are overlaid with the new content. */
    method UpdateSolution(id: Json, content: Json, now: string)
      requires Valid()
      modifies this, ls
      ensures Valid()
      ensures old(currentSession).Some? ==>
        Edited(old(ls.items), old(currentSession), SolutionEdit(old(currentSession).value, id, content), now)
      ensures old(currentSession).None? ==> unchanged(this) && unchanged(ls)
      ensures loading == old(loading) && error == old(error)
      ensures aiStatus == old(aiStatus) && aiResponseCount == old(aiResponseCount)
    {
      if currentSession.None? {
        return;
      }
      var edit := SolutionEdit(currentSession.value, id, content);
      if edit.Some? {
        UpdateCurrentSession(edit.value, now);
      }
    }

    /** `resetSession`: no session, not loading, no error, idle. */
    method ResetSession()
      requires Valid()
      modifies this
      ensures Valid()
      ensures currentSession.None? && !loading && error.None? && aiStatus == Idle
      ensures aiResponseCount == old(aiResponseCount)
    {
      currentSession := None;
      loading := false;
      error := None;
      aiStatus := Idle;
    }
  }
}

=== FILE: wrappers.dfy ===
/** Optional values and results shared by every module of the model. */
module Wrappers {

  /** A value that may be absent: JavaScript's `null` / `undefined`, or a failed lookup. */
  datatype Option<+T> = None | Some(value: T)

  /** The outcome of an operation that may throw: `Failure` carries the error message. */
  datatype Result<+T> = Success(value: T) | Failure(error: string)
}
